=== FILE: README.md ===
# upduck, modelled in Dafny

upduck is a small HTTP file server written in Go. It serves a directory tree. Clients can browse folders, download single files, or download a whole subtree as a zip, tar or tar.gz archive built on the fly. Access can be gated by HTTP Basic authentication (section 2 of RFC 7617) against a small credential store kept in a JSON file.

This project models the request-serving engine and the start-up logic as pure Dafny functions over abstract data:

- **`Wrappers`** (`wrappers.dfy`) holds `Option`, `Result`, and the `Error` the model distinguishes: `Cancelled`, or any other error carried by its text.
- **`Paths`** (`paths.dfy`) gives the lexical semantics of Go's `path/filepath` for Unix paths: `Clean`, `Join`, `Rel`, `Base`, plus `strings.TrimPrefix`. A path is cleaned into a `Path` (rooted flag plus elements) by the `Clean` loop (`Resolve`), and `Render` prints it back.
- **`Sorting`** (`sorting.dfy`) defines byte-wise name order and an insertion sort. It proves that a sequence with distinct names has exactly one sorted arrangement.
- **`FileTree`** (`filetree.dfy`) is the filesystem as the server sees it: a tree of directories, files and unreadable entries. On top of it sit `os.Stat` (`StatPath`), `Readdir` (`ReadDir`), and `filepath.Walk` as the ordered sequence of callback visits (`Visits`).
- **`Archive`** (`archive.dfy`) covers the three archive generators. The walk callback is `OnVisit`. The walk stops at the first failing callback, and cancellation is checked before every visit. An archive is modelled as a list of entries and a `closed` flag.
- **`Users`** (`users.dfy`) covers the credential store:
  - `NeedAuth` and `IsValidUser`;
  - `hash`, which is SHA-256 followed by lowercase Base16 (section 8 of RFC 4648, lowercase alphabet);
  - `constantTimeEquals`, as the byte loop of `subtle.ConstantTimeCompare`;
  - `getSalt`, `Save` (temporary file, then rename) and `loadUsers`.
- **`Server`** (`server.dfy`) covers `ServeHTTP`, `Handler` and `Directory`: the authentication gate, the GET check, path resolution, stat dispatch, format selection, and the directory listing.
- **`Config`** (`config.dfy`) covers `ParseConfig`: which branch it takes, how explicitly named flags override the file, and which warning it logs. It also covers `getConfigPath`, and main.go's condition for starting the HTTPS server.
- **`Network`** (`network.dfy`) covers `externalIP`, the address the local server is announced on.

Things outside the process are inputs:
- the file tree, SHA-256 and the random source;
- the visit before which the request context is cancelled;
- which writer calls fail;
- the flag values and the set of flags named on the command line;
- the environment and the decoded JSON;
- the network interfaces.

### Path containment

The comment at server.go:63 says the `Join`/`Rel`/`Join` sequence keeps requests such as `/../secret.pdf` inside the served directory. main.go:35 makes `BaseDir` absolute. With an absolute `BaseDir`, the sequence is an identity: `absPath` is always `Clean(BaseDir + "/" + p)` (`Server.ResolveAbsolute`). Nothing rejects a relative path that starts with `..`. So:

- `Server.ContainedWithoutClimb` proves containment for every request path whose cleaned relative part does not start with `..`. That is what `net/http`'s `ServeMux` supplies: it redirects URL paths containing `.` or `..` elements to their cleaned form before the handler runs.
- `Server.ClimbEscapes` shows the code as written without that precondition. With served directory `/d`, the URL path `/../f` resolves to `/f`, which lies outside `/d`. `Handler` does not reject a cleaned relative part that starts with `..` (server.go:63-69).

What such an escaped path reaches depends on the branch. `Handler` hands files and index pages to `http.ServeFile` (server.go:86, server.go:105). `http.ServeFile` refuses any request whose URL path contains a `..` element, answering 400 "invalid URL path". So a file such as `/f` is not served, although the model's response names it (`ServeFile("/f")`, `ServeIndex(…)`). The listing and archive branches of `Directory` (server.go:173-227) do not go through `http.ServeFile`. A request that reaches `Handler` without `ServeMux`'s cleaning can therefore list or archive a directory above the served one.

`loadUsers` returns the open error together with an empty store when the credential file cannot be opened (users.go:76-79), and `Users.LoadUsers` models that.

## Model

| member | source | states |
|---|---|---|
| Server.ServeHTTP | server.go:21-50 | When the store has users and the request has no valid credentials, the reply is a 401 challenge for realm "Upduck login" and nothing else. Otherwise the handler's response is passed on, and a handler error becomes a 500 carrying the error's text. |
| Server.RejectedTouchesNothing | server.go:23-37 | A request turned away by the authentication gate gets the same reply whatever the filesystem, cancellation and writer faults are, and never a 500. |
| Server.Handler | server.go:53-101 | A non-GET method gives 405 with no error. For GET with an absolute served directory, the target is `Clean(BaseDir/p)`, and it is dispatched as follows: a missing target gives 404 with no error; other stat errors are returned; a file is served; a directory holding index.html serves that file; otherwise disallowed listings give 403; otherwise the request goes to `Directory`. |
| Server.NonGetIgnoresPath | server.go:54-57 | The 405 for a non-GET method does not depend on the URL path or the filesystem. |
| Server.ResolveAbsolute | server.go:59-69 | With an absolute served directory, `Rel` never fails and `Join(BaseDir, Rel(BaseDir, direct))` equals `Clean(BaseDir + "/" + p)`. It is contained in the served directory exactly when the relative path `Rel` produced does not start with "..". |
| Server.ContainedWithoutClimb | server.go:59-69 | If the cleaned request part does not start with "..", the resolved path is the served directory followed by the cleaned request elements, so it lies inside the served directory. |
| Server.ClimbEscapes | server.go:63-69 | Counterexample to the comment at line 63: for served directory `/d`, the URL path `/../f` resolves to `/f`, which is not inside `/d`. |
| Server.IndexWins | server.go:82-88 | A directory with an index.html is served through that file, whatever the listing setting and the requested format. |
| Server.Directory | server.go:163-228 | The formats zip, tar and tar.gz stream the matching archive as an attachment named after the directory, with the generator's error. Anything else lists the directory, or returns the read error and writes nothing. |
| Server.ChooseSpellings | server.go:173-183 | The format value selects zip, tar or tar.gz exactly for the case-insensitive spellings of those words. The dotless i also selects zip, because `strings.ToUpper` maps it to I. Every other value, including the empty one, selects the listing. |
| Server.DownloadName | server.go:164-166 | The attachment name is the directory's last path element, or "/" for the filesystem root, followed by ".zip", ".tar" or ".tar.gz". |
| Server.Partition | server.go:196-205 | Each entry goes to the dirs part if it is a directory and to the files part otherwise, with its multiplicity kept. |
| Server.MakeListing | server.go:196-226 | Both lists are sorted by byte-wise name order. The dirs list holds exactly the directory entries and the files list holds exactly the others. The name is `Base(dirPath)`. The way back is hidden exactly when `Clean(BaseDir) == Clean(dirPath)`. |
| Server.ListingOrderFree | server.go:207-214 | With unique names, the listing depends only on which entries the directory holds, not on the order `Readdir` returned them in. This holds even though `sort.Slice` is not stable. |
| Server.ShowBackIffNotBase | server.go:216-217 | The way back is shown exactly when the cleaned served directory and the cleaned listed directory differ. |
| Sorting.SortBy | server.go:207-214 | The result is sorted by byte-wise name and is a permutation of the input. |
| Sorting.SortedUnique | server.go:207-214 | Two sorted permutations of one sequence with distinct keys are equal. |
| Paths.RelJoin | server.go:64-69 | For rooted paths, `Rel` succeeds and joining its result back onto the base gives the target. The target is contained in the base exactly when the relative path does not climb. |
| Paths.RelToCurrent | server.go:64 | `Rel` from a one-name base to "." keeps the target's text, giving "../.", which cleans to "..". |
| Paths.RelBelow | archive.go:32-42 | For a target strictly inside a rooted base, `Rel` gives the target's remaining elements joined by "/": plain names, never "..". |
| Paths.LexicalRender | server.go:217 | Printing a cleaned path and cleaning the text again gives the same path back, so `Clean` is idempotent. |
| FileTree.StatChild | server.go:72-84 | Below a directory that `os.Stat` found at a rooted path, `os.Stat` of one more name gives a not-exist error when the directory has no entry of that name. An entry whose lstat fails gives a "stat <joined path>: <reason>" failure, and any other entry is found as that entry. |
| FileTree.StatBelowFile | server.go:72-78 | With `/srv/a.txt` a file, `os.Stat("/srv/a.txt/x")` fails with "stat /srv/a.txt/x: not a directory", and the failure does not count as a missing path, so the request gets a 500 and not a 404. |
| FileTree.Infos | server.go:191-194 | `Readdir` succeeds exactly when every entry can be stat'ed, and then gives one info per entry, in directory order. |
| FileTree.VisitsBelow | archive.go:20 | For a walk rooted at a rooted path over a well-formed tree, the first visit is the root path itself and every later visit's cleaned path lies strictly below the root's cleaned path. |
| FileTree.VisitsFiles | archive.go:20 | In a walk of a subtree where nothing fails, the files visited, with their paths relative to the root, are exactly the subtree's files. |
| Archive.OnVisit | archive.go:20-61 | The callback fails with `Cancelled` once the context is done, whatever the visit. Otherwise: a reported error is returned; a directory adds nothing; a file adds exactly its own bytes under `Rel(directory, path)`, and fails exactly when `Rel` or one of its per-file calls fails. |
| Archive.Walk | archive.go:20-64 | The walk collects the entries of the visits before the first failing callback, and returns that callback's error. It returns no error exactly when every callback succeeds. |
| Archive.Generate | archive.go:17-72 | The zip and tar generators run the walk. A walk error is returned with the writer left open. Otherwise the writer is closed once and its close error is returned. The entries are those of the visits before the first failure. |
| Archive.ResultsShape | archive.go:27-42 | A succeeding callback adds an entry exactly for a file visit, and that entry is the file's bytes under its relative name. |
| Archive.ProducedFromFiles | archive.go:27-58 | Every entry of a walk is some visited file under its relative name, and there is exactly one entry per file visited. |
| Archive.EntryNamesSafe | archive.go:32-42 | For a rooted directory, every entry name is a relative path of plain names with no leading "/" and no "..". Extracting it into the directory lands strictly inside the directory. |
| Archive.CancelStops | archive.go:21-25 | A cancellation before visit c stops the walk at or before c. The writer is not closed and an error is returned: the cancellation itself, unless an earlier callback failed. No file from visit c on is written. |
| Archive.LateCancel | archive.go:21-25 | A cancellation that fires after the last visit changes nothing. |
| Archive.ArchiveHoldsFiles | archive.go:20-71 | For a subtree where nothing fails and no cancellation happens, the walk completes and the writer is closed with its close error returned. The entries, read back as relative paths, are exactly the subtree's files with their contents. |
| Archive.GenerateTarGz | archive.go:133-146 | A gzip creation error returns before anything is written. Otherwise gzip receives exactly the tar generator's stream and is always closed. The tar error wins, and the gzip close error is returned only when the tar step succeeded. |
| Users.NeedAuth | users.go:21-26 | Authentication is required exactly when the store holds at least one user. |
| Users.IsValidUser | users.go:29-39 | An unknown user is rejected. A known user is accepted exactly when the stored hash equals the hash of the password under the stored salt. |
| Users.CredentialAccepts | users.go:29-39 | A credential made from a password accepts that password. It accepts another password exactly when SHA-256 maps the two salted messages to the same digest. |
| Users.Hash | users.go:107-116 | The hash is 64 lowercase hex characters that decode to SHA-256 of the salt followed by the password. |
| Users.HashMatches | users.go:107-116 | Two passwords hash alike under one salt exactly when their salted digests are equal, because hex encoding loses nothing. |
| Users.HexRoundTrip | users.go:115 | Decoding the lowercase hex encoding gives back the original bytes. |
| Users.GetSalt | users.go:96-105 | The salt is exactly 128 bytes taken from the front of the random source. A source that delivers fewer bytes is a panic, whose text ends in "EOF" when no byte arrived and in "unexpected EOF" after a partial read, as `io.ReadFull` reports. |
| Users.SaltReadsPrefix | users.go:96-105 | Two random sources that agree on their first 128 bytes give the same salt, whatever follows. |
| Users.ConstantTimeByteEq | users.go:119 | The branch-free byte comparison gives 1 for equal bytes and 0 otherwise. |
| Users.ConstantTimeEquals | users.go:118-120 | `constantTimeEquals` holds exactly when the two byte strings are equal: same length and same bytes. |
| Users.ConstantTimeCompare | users.go:118-120 | The XOR-OR loop returns 1 exactly for equal inputs and 0 otherwise. |
| Users.Save | users.go:42-66 | Files other than the target and its ".temp" file are untouched. On any failure the target is unchanged. On success the target holds the encoded store and the temporary file is gone. Save succeeds exactly when no step fails. |
| Users.LoadUsers | users.go:69-89 | There is always a store. If the file is missing, the store is empty and an error is returned. Otherwise the store holds what the decoder read, with an empty map in place of a missing `users`, and the decoder's error is returned. |
| Users.SaveThenLoad | users.go:42-89 | A successful save followed by a load gives the saved store back with no error, for a decoder that reads back what the encoder wrote. |
| Config.GetConfigPath | config.go:164-182 | The path is `$XDG_CONFIG_HOME/.upduck.json` when that variable is set, and `<home>/.config/.upduck.json` otherwise. A failing or empty home directory panics, exactly when the variable is unset. |
| Config.ConfigPathName | config.go:181 | The configuration path always ends in the element ".upduck.json". |
| Config.FromFlags | config.go:84-90 | The configuration taken from flags copies token, site and email, and leaves the served directory empty. |
| Config.ParseConfig | config.go:80-161 | `-save` writes the flag configuration and exits, returns the save error, or panics without a configuration path. The file is loaded only when token, site and email are all empty. In that branch, only the explicitly named -p, -dir and -disallow-listings override the file. A warning is only classified when no error is returned; `WarnIffNoHttps` states which one. |
| Config.FileOnlyWhenFlagsEmpty | config.go:117-145 | Outside the load branch, neither the files nor the decoder affect the result, and the served directory stays empty. |
| Config.NamedFlagsOverrideFile | config.go:124-144 | For two files whose decoding errs alike and that differ only in members whose flag the command line named, both outcomes are error-free or neither is, and when they are error-free they are equal, because the named -p, -dir or -disallow-listings replaces those members. Outside the load branch the outcomes are equal anyway. |
| Config.LoadedFallbacks | config.go:24-26 | A loaded setting comes from the named flag, else from the file, else from the flag's default. The served directory is the exception: with neither -dir nor a "dir" member it is empty, not the flag default ".". |
| Config.WarnIffNoHttps | config.go:148-158 | No warning is logged exactly when both the DuckDNS site and token are set, which is main.go's condition for starting the HTTPS server. Otherwise the warning names the missing setting. |
| Network.To4 | main.go:125-128 | `To4` gives the last four bytes exactly for a 4-byte IP or an IPv4-mapped 16-byte IP, and nothing otherwise. |
| Network.ExternalIP | main.go:98-133 | The result is the first non-nil, non-loopback IPv4 address of the first interface that is up and not loopback and has one, in dotted decimal. An `Addrs` error on an earlier eligible interface is returned instead. With no such address, the fixed "are you connected" error is returned. |
| Network.SkippedBeforeAnswer | main.go:103-129 | Every interface before the answer is down, or loopback, or lists only addresses that are nil, loopback or not IPv4. |
| Network.DottedRoundTrip | main.go:129 | The dotted-decimal text of an IPv4 address parses back to its four bytes. |

## Left out

- duckdns.go (`PingDuckDNS`) is HTTP client I/O with a one-line status check. The certmagic, ACME and TLS setup and the listeners in main.go are left out too.
- `http.ServeFile`, the response headers, and rendering and escaping by `html/template` are left out. The model keeps the response kind and the `dirListing` value. It does not model template execution errors. `ServeFile` and `ServeIndex` name the path handed to `http.ServeFile`. They do not model its own checks, in particular its 400 answer to a URL path with a `..` element, which stops an escaped path from serving a file. Escaped listings and archives are not stopped by it.
- Zip, tar and gzip byte formats, DEFLATE, file metadata headers, `io.Copy` and file handles are left out. An archive is a list of entries and a `closed` flag.
- A file whose header, open, write or copy fails is modelled as one per-file fault. Any entry bytes a failed file may already have written are not modelled.
- SHA-256 is an uninterpreted function to 32 bytes. `crypto/rand` is the sequence of bytes it would deliver.
- The `sync.RWMutex` in `UserStore` is left out. The store is modelled sequentially.
- Error texts other than `os.Stat`'s, `Rel`'s and the configuration file's `open` error are the bare reason. They lack the "<op> <path>: " prefix Go puts in front: `Readdir`'s lstat, `filepath.Walk`'s lstat, and the directory open/read errors in `Directory` and the archive walk. Which file failed is therefore not part of those texts.
- JSON encoding and decoding, the `flag` package, `os.Exit`, `os.MkdirAll` and logging are left out. Decoded values, flag values and the set of named flags are inputs, and the process exit is the `Saved` outcome. What `flag.Parse` guarantees about unnamed flags, that they hold their defaults, is the predicate `Config.Parsed`.
- main.go's start-up checks on `BaseDir` (`os.Stat`, `filepath.Abs`) are left out. The server is assumed to hold an absolute served directory, as main.go makes it.
- upduck's files are not all from one revision. main.go:20 expects three results from `ParseConfig`, which returns two (config.go:80). main.go:64 reads a `SecurePort` setting that `Config` does not have (config.go:13-21). users.go:43 calls `getConfigPath` with an argument, but config.go:164 takes none. Each function is modelled as written, and the user-file path is a parameter.
- Symbolic links, permissions and modification times are not part of the file tree. `os.Open` failing on a directory that `os.Stat` found is not modelled separately from `Readdir` failing.
- Server.Handler: its contract describes an absolute served directory only. For a relative `BaseDir`, the function still follows the code, but no contract is stated.
- Archive.EntryNamesSafe, Archive.ArchiveHoldsFiles: these are stated for a rooted directory path, which is what `Handler` passes for an absolute served directory.
- Paths covers Unix paths only, where the separator is "/". Windows volume names are not modelled.
- Names and paths are `string`, a sequence of Unicode scalar values, where Go strings are byte sequences. File names and percent-decoded URL paths are therefore restricted to valid UTF-8; names that are not valid UTF-8, legal on Linux, are not modelled. `Sorting.NameLe` equals Go's byte-wise `<=` only under this restriction, because code points compare in the order of their UTF-8 encodings.

=== FILE: archive.dfy ===
/** archive.go: a directory subtree streamed as a zip, tar or gzip-compressed
    tar archive. The container formats are abstract: an archive is the list of
    entries written into the container writer, plus whether the writer was
    closed (which is what writes the trailer that makes the archive valid). */
module Archive {
  import opened Wrappers
  import opened Paths
  import opened FileTree

  /** One file of the archive: its name inside the archive and its bytes. */
  datatype Entry = Entry(name: string, data: seq<byte>)

  datatype Format = Zip | Tar

  /** What a zip or tar writer has received. */
  datatype Container = Container(format: Format, entries: seq<Entry>, closed: bool)

  /** The container written and the error the generator returns. */
  datatype Outcome = Outcome(out: Container, err: Option<Error>)

  /** The gzip writer of the tar.gz variant and the tar stream it compressed. */
  datatype Gzip = Gzip(tar: Container, closed: bool)

  /** The gzip stream (absent when the gzip writer could not be created) and
      the error returned. */
  datatype GzOutcome = GzOutcome(out: Option<Gzip>, err: Option<Error>)

  /** The request context is done by the time visit `i` starts: it fires
      before visit `cancelAt` and stays fired. */
  predicate Done(cancelAt: Option<nat>, i: nat) {
    cancelAt.Some? && cancelAt.value <= i
  }

  // ---------------------------------------------------------------------------
  // The walk callback
  // ---------------------------------------------------------------------------

  /** The callback both generators pass to `filepath.Walk`, on one visit: a
      cancelled context wins over everything; an error reported for the visit
      is returned; a directory adds nothing; a file adds exactly its own bytes
      under its path relative to `directory`, and fails exactly when reading
      it fails or `Rel` does. */
  function OnVisit(directory: string, v: Visit, done: bool): (r: Result<Option<Entry>, Error>)
    ensures done ==> r == Failure(Cancelled)
    ensures r.Success? && r.value.Some? ==>
              && v.FileVisit? && v.fault.None?
              && Rel(directory, v.path) == Success(r.value.value.name)
              && r.value.value.data == v.data
    ensures !done && v.DirVisit? ==> (r.Success? <==> v.readErr.None?)
    ensures !done && v.DirVisit? && r.Success? ==> r.value.None?
    ensures !done && v.ErrorVisit? ==> r == Failure(Failed(v.lstatErr))
    ensures !done && v.FileVisit? ==>
              && (r.Success? <==> v.fault.None? && Rel(directory, v.path).Success?)
              && (r.Success? ==> r.value.Some?)
  {
    if done then Failure(Cancelled)
    else
      match v
      case ErrorVisit(_, e) => Failure(Failed(e))
      case DirVisit(_, readErr) =>
        if readErr.Some? then Failure(Failed(readErr.value)) else Success(None)
      case FileVisit(path, data, fault) =>
        match Rel(directory, path)
        case Failure(e) => Failure(e)
        case Success(rel) =>
          if fault.Some? then Failure(Failed(fault.value)) else Success(Some(Entry(rel, data)))
  }

  /** What the callback returns on one visit: the entry it adds, if any. */
  type VisitResult = Result<Option<Entry>, Error>

  /** The callback's results on the visits `vs`, in walk order. */
  function Results(directory: string, vs: seq<Visit>, cancelAt: Option<nat>): (rs: seq<VisitResult>)
    ensures |rs| == |vs|
  {
    seq(|vs|, i requires 0 <= i < |vs| => OnVisit(directory, vs[i], Done(cancelAt, i)))
  }

  /** The first visit from `i` on whose callback fails, or `|rs|`. */
  function FirstFailure(rs: seq<VisitResult>, i: nat): (k: nat)
    requires i <= |rs|
    ensures i <= k <= |rs|
    ensures forall j :: i <= j < k ==> rs[j].Success?
    ensures k < |rs| ==> rs[k].Failure?
    decreases |rs| - i
  {
    if i == |rs| || rs[i].Failure? then i
    else FirstFailure(rs, i + 1)
  }

  /** The entry a succeeding callback adds, as a sequence of zero or one. */
  function Added(r: VisitResult): seq<Entry>
    requires r.Success?
  {
    if r.value.Some? then [r.value.value] else []
  }

  /** The entries added by the visits in `[i, k)`, whose callbacks all succeed. */
  function Produced(rs: seq<VisitResult>, i: nat, k: nat): seq<Entry>
    requires i <= k <= |rs|
    requires forall j :: i <= j < k ==> rs[j].Success?
    decreases k - i
  {
    if i == k then [] else Added(rs[i]) + Produced(rs, i + 1, k)
  }

  datatype WalkResult = WalkResult(entries: seq<Entry>, err: Option<Error>)

  /** `filepath.Walk` driving the callback from visit `i` on: the walk stops at
      the first callback that fails and returns its error. */
  function Walk(rs: seq<VisitResult>, i: nat): (r: WalkResult)
    requires i <= |rs|
    ensures var k := FirstFailure(rs, i);
            && r.entries == Produced(rs, i, k)
            && (r.err.None? <==> k == |rs|)
            && (k < |rs| ==> r.err == Some(rs[k].error))
    decreases |rs| - i
  {
    if i == |rs| then WalkResult([], None)
    else
      match rs[i]
      case Failure(e) => WalkResult([], Some(e))
      case Success(e) =>
        var rest := Walk(rs, i + 1);
        WalkResult((if e.Some? then [e.value] else []) + rest.entries, rest.err)
  }

  // ---------------------------------------------------------------------------
  // The generators
  // ---------------------------------------------------------------------------

  /** The shared body of `GenerateZIPFromDir` and `GenerateTARFromDir`: walk
      `root` (the node at `directory`); on a walk error return it with the
      writer left open; otherwise close the writer once and return the close
      error. */
  function Generate(format: Format, directory: string, root: Node, cancelAt: Option<nat>, closeErr: Option<Error>): (r: Outcome)
    ensures var rs := Results(directory, Visits(directory, root), cancelAt);
            var k := FirstFailure(rs, 0);
            && r.out.format == format
            && r.out.entries == Produced(rs, 0, k)
            && (r.out.closed <==> k == |rs|)
            && (r.out.closed ==> r.err == closeErr)
            && (!r.out.closed ==> r.err == Some(rs[k].error))
  {
    var w := Walk(Results(directory, Visits(directory, root), cancelAt), 0);
    if w.err.Some? then Outcome(Container(format, w.entries, false), w.err)
    else Outcome(Container(format, w.entries, true), closeErr)
  }

  /** `GenerateZIPFromDir`. */
  function GenerateZip(directory: string, root: Node, cancelAt: Option<nat>, closeErr: Option<Error>): (r: Outcome)
    ensures r.out.format == Zip
  {
    Generate(Zip, directory, root, cancelAt, closeErr)
  }

  /** `GenerateTARFromDir`. */
  function GenerateTar(directory: string, root: Node, cancelAt: Option<nat>, closeErr: Option<Error>): (r: Outcome)
    ensures r.out.format == Tar
  {
    Generate(Tar, directory, root, cancelAt, closeErr)
  }

  /** `GenerateTARGZFromDir`: a gzip writer is created over the output (its
      creation error returns before anything is written), the tar generator
      writes into it, and the deferred close of the gzip writer runs on every
      path afterwards; its error is returned only when the tar step
      succeeded. */
  function GenerateTarGz(directory: string, root: Node, cancelAt: Option<nat>, tarCloseErr: Option<Error>,
                         gzipNewErr: Option<Error>, gzipCloseErr: Option<Error>): (r: GzOutcome)
    ensures gzipNewErr.Some? ==> r.out.None? && r.err == gzipNewErr
    ensures gzipNewErr.None? ==>
              var t := GenerateTar(directory, root, cancelAt, tarCloseErr);
              && r.out.Some? && r.out.value.closed
              && r.out.value.tar == t.out
              && (t.err.Some? ==> r.err == t.err)
              && (t.err.None? ==> r.err == gzipCloseErr)
  {
    if gzipNewErr.Some? then GzOutcome(None, gzipNewErr)
    else
      var t := GenerateTar(directory, root, cancelAt, tarCloseErr);
      var err := t.err;
      var err := if err.None? then gzipCloseErr else err;
      GzOutcome(Some(Gzip(t.out, true)), err)
  }

  // ---------------------------------------------------------------------------
  // Which visits add entries
  // ---------------------------------------------------------------------------

  /** The number of file visits among `vs[i..k]`. */
  function FileCount(vs: seq<Visit>, i: nat, k: nat): nat
    requires i <= k <= |vs|
    decreases k - i
  {
    if i == k then 0 else (if vs[i].FileVisit? then 1 else 0) + FileCount(vs, i + 1, k)
  }

  lemma {:induction false} FileCountMonotonic(vs: seq<Visit>, i: nat, k: nat, c: nat)
    requires i <= k <= c <= |vs|
    ensures FileCount(vs, i, k) <= FileCount(vs, i, c)
    decreases k - i
  {
    if i < k {
      FileCountMonotonic(vs, i + 1, k, c);
    } else {
      assert FileCount(vs, i, k) == 0;
    }
  }

  /** `e` is the entry visit `v` adds: a file, named relative to `directory`. */
  predicate EntryOf(directory: string, v: Visit, e: Entry) {
    v.FileVisit? && v.fault.None? && Rel(directory, v.path) == Success(e.name) && e.data == v.data
  }

  /** Every succeeding callback adds an entry exactly for a file, and that
      entry is the file's. */
  lemma ResultsShape(directory: string, vs: seq<Visit>, cancelAt: Option<nat>)
    ensures var rs := Results(directory, vs, cancelAt);
            forall j :: 0 <= j < |vs| && rs[j].Success? ==>
              && (rs[j].value.Some? <==> vs[j].FileVisit?)
              && (rs[j].value.Some? ==> EntryOf(directory, vs[j], rs[j].value.value))
  {
    var rs := Results(directory, vs, cancelAt);
    forall j | 0 <= j < |vs| && rs[j].Success?
      ensures rs[j].value.Some? <==> vs[j].FileVisit?
      ensures rs[j].value.Some? ==> EntryOf(directory, vs[j], rs[j].value.value)
    {
      assert rs[j] == OnVisit(directory, vs[j], Done(cancelAt, j));
    }
  }

  /** The callback adds an entry exactly on the file visits among `[i, k)`. */
  ghost predicate AddsFiles(rs: seq<VisitResult>, vs: seq<Visit>, i: nat, k: nat) {
    && i <= k <= |rs| == |vs|
    && forall j :: i <= j < k ==> rs[j].Success? && (rs[j].value.Some? <==> vs[j].FileVisit?)
  }

  /** A walk adds one entry per file it visits and nothing for a directory. */
  lemma {:induction false} ProducedCount(rs: seq<VisitResult>, vs: seq<Visit>, i: nat, k: nat)
    requires AddsFiles(rs, vs, i, k)
    ensures |Produced(rs, i, k)| == FileCount(vs, i, k)
    decreases k - i
  {
    if i < k {
      ProducedCount(rs, vs, i + 1, k);
    }
  }

  /** The visit whose callback added the entry `e` of visits `[i, k)`. */
  lemma {:induction false} EntryFrom(rs: seq<VisitResult>, i: nat, k: nat, e: Entry) returns (j: nat)
    requires i <= k <= |rs|
    requires forall j :: i <= j < k ==> rs[j].Success?
    requires e in Produced(rs, i, k)
    ensures i <= j < k && rs[j] == Success(Some(e))
    decreases k - i
  {
    assert Produced(rs, i, k) == Added(rs[i]) + Produced(rs, i + 1, k);
    if e in Added(rs[i]) {
      j := i;
    } else {
      j := EntryFrom(rs, i + 1, k, e);
    }
  }

  /** Every entry of a walk is the file of some visit, under its relative
      name, and there is one entry per file visited. */
  lemma ProducedFromFiles(directory: string, vs: seq<Visit>, cancelAt: Option<nat>, k: nat)
    requires var rs := Results(directory, vs, cancelAt);
             k <= |vs| && forall j :: 0 <= j < k ==> rs[j].Success?
    ensures var rs := Results(directory, vs, cancelAt);
            && |Produced(rs, 0, k)| == FileCount(vs, 0, k)
            && forall e :: e in Produced(rs, 0, k) ==> exists j :: 0 <= j < k && EntryOf(directory, vs[j], e)
  {
    var rs := Results(directory, vs, cancelAt);
    ResultsShape(directory, vs, cancelAt);
    ProducedCount(rs, vs, 0, k);
    forall e | e in Produced(rs, 0, k)
      ensures exists j :: 0 <= j < k && EntryOf(directory, vs[j], e)
    {
      var j := EntryFrom(rs, 0, k, e);
      assert EntryOf(directory, vs[j], e);
    }
  }

  // ---------------------------------------------------------------------------
  // Entry names
  // ---------------------------------------------------------------------------

  /** A name that is safe to extract: a relative path of one or more plain
      names, so it neither starts at the root nor climbs with "..". */
  predicate SafeName(name: string) {
    var p := Lexical(name);
    !p.rooted && |p.elems| > 0 && AllNames(p.elems)
  }

  /** The entry of a file strictly below the directory has a safe name that
      leads back to the file. */
  lemma EntryBelow(directory: string, v: Visit, e: Entry)
    requires |directory| > 0 && directory[0] == Sep
    requires StrictlyBelow(Lexical(v.path), Lexical(directory))
    requires EntryOf(directory, v, e)
    ensures SafeName(e.name)
    ensures Lexical(Join(directory, e.name)) == Lexical(directory + [Sep] + e.name)
    ensures StrictlyBelow(Lexical(Join(directory, e.name)), Lexical(directory))
  {
    RelBelow(directory, v.path);
    RelJoin(directory, v.path);
    JoinIsClean(directory, e.name);
    LexicalRender(Lexical(directory + [Sep] + e.name));
  }

  /** Zip slip cannot happen through the generators: for a directory given
      as a rooted path, every entry name is a relative path of plain names,
      and extracting it into that directory lands strictly inside it. */
  lemma EntryNamesSafe(format: Format, directory: string, root: Node, cancelAt: Option<nat>, closeErr: Option<Error>)
    requires |directory| > 0 && directory[0] == Sep
    requires root.Dir? && WellFormed(root)
    ensures forall e :: e in Generate(format, directory, root, cancelAt, closeErr).out.entries ==>
              && SafeName(e.name)
              && StrictlyBelow(Lexical(Join(directory, e.name)), Lexical(directory))
  {
    var vs := Visits(directory, root);
    var rs := Results(directory, vs, cancelAt);
    VisitsBelow(directory, root);
    var k := FirstFailure(rs, 0);
    ProducedFromFiles(directory, vs, cancelAt, k);
    forall e | e in Produced(rs, 0, k)
      ensures SafeName(e.name)
      ensures StrictlyBelow(Lexical(Join(directory, e.name)), Lexical(directory))
    {
      var j :| 0 <= j < k && EntryOf(directory, vs[j], e);
      assert vs[0].DirVisit?;
      assert vs[1..][j - 1] == vs[j];
      EntryBelow(directory, vs[j], e);
    }
  }

  // ---------------------------------------------------------------------------
  // Cancellation
  // ---------------------------------------------------------------------------

  /** A request cancelled before visit `c` stops the walk no later than `c`:
      the writer is never closed, an error is returned (the cancellation
      itself when nothing failed earlier), and no file from visit `c` on is
      written. */
  lemma CancelStops(format: Format, directory: string, root: Node, c: nat, closeErr: Option<Error>)
    requires c < |Visits(directory, root)|
    ensures var vs := Visits(directory, root);
            var r := Generate(format, directory, root, Some(c), closeErr);
            var k := FirstFailure(Results(directory, vs, Some(c)), 0);
            && k <= c
            && !r.out.closed && r.err.Some?
            && (k == c ==> r.err == Some(Cancelled))
            && |r.out.entries| <= FileCount(vs, 0, c)
  {
    var vs := Visits(directory, root);
    var rs := Results(directory, vs, Some(c));
    assert rs[c] == Failure(Cancelled);
    var k := FirstFailure(rs, 0);
    ProducedFromFiles(directory, vs, Some(c), k);
    FileCountMonotonic(vs, 0, k, c);
  }

  /** A cancellation after the last visit changes nothing. */
  lemma LateCancel(format: Format, directory: string, root: Node, c: nat, closeErr: Option<Error>)
    requires |Visits(directory, root)| <= c
    ensures Generate(format, directory, root, Some(c), closeErr) == Generate(format, directory, root, None, closeErr)
  {
    var vs := Visits(directory, root);
    var rs, rs' := Results(directory, vs, Some(c)), Results(directory, vs, None);
    forall i | 0 <= i < |vs|
      ensures rs[i] == rs'[i]
    {
      assert !Done(Some(c), i) && !Done(None, i);
    }
    assert rs == rs';
  }

  // ---------------------------------------------------------------------------
  // The archive holds the subtree's files
  // ---------------------------------------------------------------------------

  /** The entries as files: each entry's cleaned name and its bytes. */
  ghost function EntrySet(es: seq<Entry>): set<FileAt> {
    set e | e in es :: (Lexical(e.name).elems, e.data)
  }

  /** What one succeeding callback adds, read back as files: the visited
      file under its path below the directory, or nothing for a directory. */
  lemma VisitEntry(directory: string, v: Visit)
    requires |directory| > 0 && directory[0] == Sep
    requires v.FileVisit? ==> StrictlyBelow(Lexical(v.path), Lexical(directory))
    requires OnVisit(directory, v, false).Success?
    ensures EntrySet(Added(OnVisit(directory, v, false))) == VisitFile(v, |Lexical(directory).elems|)
  {
    if v.FileVisit? {
      RelBelow(directory, v.path);
    }
  }

  /** The files the entries of visits `[i, |rs|)` hold are the files visited. */
  lemma {:induction false} ProducedFileSet(rs: seq<VisitResult>, vs: seq<Visit>, m: nat, i: nat)
    requires i <= |rs| == |vs|
    requires forall j :: i <= j < |rs| ==> rs[j].Success? && EntrySet(Added(rs[j])) == VisitFile(vs[j], m)
    ensures EntrySet(Produced(rs, i, |rs|)) == FileSet(vs[i..], m)
    decreases |rs| - i
  {
    if i < |rs| {
      ProducedFileSet(rs, vs, m, i + 1);
      var head, rest := Added(rs[i]), Produced(rs, i + 1, |rs|);
      assert EntrySet(head + rest) == EntrySet(head) + EntrySet(rest);
      assert vs[i..][0] == vs[i] && vs[i..][1..] == vs[i + 1..];
    } else {
      assert vs[i..] == [];
    }
  }

  /** The archive of a sound subtree, not cancelled, is complete: the walk
      reaches its end, the writer is closed and its error returned, and the
      entries, read back as relative paths, are exactly the subtree's files
      with their contents. */
  lemma ArchiveHoldsFiles(format: Format, directory: string, root: Node, closeErr: Option<Error>)
    requires |directory| > 0 && directory[0] == Sep
    requires root.Dir? && WellFormed(root) && Sound(root)
    ensures var r := Generate(format, directory, root, None, closeErr);
            && r.out.closed && r.err == closeErr
            && EntrySet(r.out.entries) == FilesBelow(root)
  {
    var vs := Visits(directory, root);
    var rs := Results(directory, vs, None);
    var m := |Lexical(directory).elems|;
    VisitsBelow(directory, root);
    SoundVisits(directory, root);
    forall j | 0 <= j < |vs|
      ensures rs[j].Success? && EntrySet(Added(rs[j])) == VisitFile(vs[j], m)
    {
      assert Harmless(vs[j]);
      if j > 0 {
        assert vs[1..][j - 1] == vs[j];
        RelJoin(directory, vs[j].path);
      }
      VisitEntry(directory, vs[j]);
    }
    assert FirstFailure(rs, 0) == |vs|;
    ProducedFileSet(rs, vs, m, 0);
    assert vs[0..] == vs;
    VisitsFiles(directory, root);
  }
}

=== FILE: config.dfy ===
/** config.go: where the server's settings come from. The command line, the
    set of flags it named explicitly, the environment and the decoded
    configuration file are all inputs; writing the file and exiting the
    process are outcomes. */
module Config {
  import opened Wrappers
  import opened Paths

  /** The server's settings (`Config`). */
  datatype Config = Config(serverPort: int, baseDir: string, disallowListings: bool,
                           token: string, site: string, email: string)

  /** The values of the command-line flags after parsing, defaults included. */
  datatype Flags = Flags(port: int, dir: string, disallowListings: bool,
                         email: string, token: string, site: string, save: bool)

  /** The values a flag holds when the command line does not set it. */
  const DefaultFlags: Flags := Flags(8080, ".", false, "", "", "", false)

  const PortFlag: string := "p"
  const DirFlag: string := "dir"
  const DisallowFlag: string := "disallow-listings"
  const EmailFlag: string := "email"
  const TokenFlag: string := "token"
  const SiteFlag: string := "site"
  const SaveFlag: string := "save"

  /** What `flag.Parse` leaves behind: a flag the command line did not name
      still holds its default. */
  predicate Parsed(f: Flags, visited: set<string>) {
    && (PortFlag !in visited ==> f.port == DefaultFlags.port)
    && (DirFlag !in visited ==> f.dir == DefaultFlags.dir)
    && (DisallowFlag !in visited ==> f.disallowListings == DefaultFlags.disallowListings)
    && (EmailFlag !in visited ==> f.email == DefaultFlags.email)
    && (TokenFlag !in visited ==> f.token == DefaultFlags.token)
    && (SiteFlag !in visited ==> f.site == DefaultFlags.site)
    && (SaveFlag !in visited ==> f.save == DefaultFlags.save)
  }

  /** The members a configuration file sets; decoding overwrites exactly these. */
  datatype FileConfig = FileConfig(serverPort: Option<int>, dir: Option<string>, disallowListings: Option<bool>,
                                   token: Option<string>, site: Option<string>, email: Option<string>)

  /** What the JSON decoder made of a file: the members it set and its error. */
  datatype Decoded = Decoded(fields: FileConfig, err: Option<Error>)

  /** `XDG_CONFIG_HOME` ("" when unset) and what `os.UserHomeDir` returns. */
  datatype Env = Env(xdgConfigHome: string, home: Result<string, Error>)

  // ---------------------------------------------------------------------------
  // getConfigPath
  // ---------------------------------------------------------------------------

  const ConfigFileName: string := ".upduck.json"
  const ConfigDirName: string := ".config"

  /** A joined path is never empty once a name has been joined onto it. */
  lemma JoinNameNonEmpty(a: string, name: string)
    requires a != "" && IsName(name)
    ensures Join(a, name) != ""
  {
    JoinName(a, name);
    assert Split("") == [""];
    assert Lexical("").elems == [];
  }

  /** `getConfigPath`: `$XDG_CONFIG_HOME/.upduck.json` when that variable is
      set, else `<home>/.config/.upduck.json`; a failing or empty home
      directory is a panic (`Failure` here). */
  function GetConfigPath(env: Env): (r: Result<string, Error>)
    ensures r.Success? <==> env.xdgConfigHome != "" || (env.home.Success? && env.home.value != "")
    ensures r.Success? && env.xdgConfigHome != "" ==>
              Lexical(r.value) == Path(Lexical(env.xdgConfigHome).rooted,
                                       Lexical(env.xdgConfigHome).elems + [ConfigFileName])
    ensures r.Success? && env.xdgConfigHome == "" ==>
              Lexical(r.value) == Path(Lexical(env.home.value).rooted,
                                       Lexical(env.home.value).elems + [ConfigDirName, ConfigFileName])
  {
    if env.xdgConfigHome != "" then
      JoinName(env.xdgConfigHome, ConfigFileName);
      Success(Join(env.xdgConfigHome, ConfigFileName))
    else if env.home.Failure? then
      Failure(Failed("cannot determine user home directory/configuration directory (" + env.home.error.Text() + ")"))
    else if env.home.value == "" then
      Failure(Failed("cannot determine user configuration directory"))
    else
      var cfgDir := Join(env.home.value, ConfigDirName);
      JoinNameNonEmpty(env.home.value, ConfigDirName);
      JoinName(env.home.value, ConfigDirName);
      JoinName(cfgDir, ConfigFileName);
      Success(Join(cfgDir, ConfigFileName))
  }

  /** The configuration path always names the file `.upduck.json`. */
  lemma ConfigPathName(env: Env)
    requires GetConfigPath(env).Success?
    ensures var p := Lexical(GetConfigPath(env).value);
            |p.elems| > 0 && p.elems[|p.elems| - 1] == ConfigFileName
  {
  }

  // ---------------------------------------------------------------------------
  // ParseConfig
  // ---------------------------------------------------------------------------

  /** The configuration the flags give before any file is read. `-dir` is not
      copied, so the served directory is left empty. */
  function FromFlags(f: Flags): (c: Config)
    ensures c.baseDir == ""
    ensures (c.token, c.site, c.email) == (f.token, f.site, f.email)
  {
    Config(f.port, "", f.disallowListings, f.token, f.site, f.email)
  }

  /** Decoding a file into `c`: the members the file sets replace `c`'s. */
  function Overlay(c: Config, fc: FileConfig): Config {
    Config(fc.serverPort.GetOr(c.serverPort), fc.dir.GetOr(c.baseDir),
           fc.disallowListings.GetOr(c.disallowListings),
           fc.token.GetOr(c.token), fc.site.GetOr(c.site), fc.email.GetOr(c.email))
  }

  /** The flags named on the command line that take precedence over the file. */
  function Override(c: Config, f: Flags, visited: set<string>): Config {
    var c := if PortFlag in visited then c.(serverPort := f.port) else c;
    var c := if DirFlag in visited then c.(baseDir := f.dir) else c;
    if DisallowFlag in visited then c.(disallowListings := f.disallowListings) else c
  }

  /** What `ParseConfig` logs about the DuckDNS settings it ends up with. */
  datatype Warning = NotSecure | TokenMissing | SiteMissing

  function Warn(c: Config): Option<Warning> {
    if c.token == "" then
      if c.site == "" then Some(NotSecure) else Some(TokenMissing)
    else if c.site == "" then Some(SiteMissing)
    else None
  }

  /** main.go sets up the HTTPS server exactly when both the DuckDNS site and
      token are given; the email plays no part. */
  predicate HttpsEnabled(c: Config) {
    c.site != "" && c.token != ""
  }

  /** No warning is logged exactly when the HTTPS server will be set up, and
      each warning names the one setting that is missing. */
  lemma WarnIffNoHttps(c: Config)
    ensures Warn(c).None? <==> HttpsEnabled(c)
    ensures Warn(c) == Some(NotSecure) <==> c.token == "" && c.site == ""
    ensures Warn(c) == Some(TokenMissing) <==> c.token == "" && c.site != ""
    ensures Warn(c) == Some(SiteMissing) <==> c.token != "" && c.site == ""
  {
  }

  /** How `ParseConfig` ends: the flags were saved and the process exits with
      status 0; a configuration (with its error, and the warning it logs when
      there is none) is returned; or the configuration path panics. */
  datatype Outcome =
    | Saved(config: Config, path: string)
    | Returned(config: Config, err: Option<Error>, warning: Option<Warning>)
    | Panicked(message: string)

  /** Only `-p` and the other settings are given: `-token`, `-site` and
      `-email` are all empty, so the file is loaded. */
  predicate LoadsFile(f: Flags) {
    !f.save && f.token == "" && f.site == "" && f.email == ""
  }

  /** `ParseConfig`. `files` are the readable files by path, `decode` the JSON
      decoder, `saveErr` the first error creating or encoding the saved file. */
  function ParseConfig(f: Flags, visited: set<string>, env: Env, files: map<string, seq<byte>>,
                       decode: seq<byte> -> Decoded, saveErr: Option<Error>): (r: Outcome)
    ensures f.save ==> !r.Returned? || (r.config == FromFlags(f) && r.err == saveErr && r.err.Some?)
    ensures r.Saved? <==> f.save && GetConfigPath(env).Success? && saveErr.None?
    ensures r.Saved? ==> r.config == FromFlags(f) && r.path == GetConfigPath(env).value
    ensures r.Panicked? <==> (f.save || LoadsFile(f)) && GetConfigPath(env).Failure?
    ensures !f.save && !LoadsFile(f) ==> r == Returned(FromFlags(f), None, Warn(FromFlags(f)))
    ensures r.Returned? && r.err.Some? ==> r.warning.None?
    ensures r.Returned? && r.err.None? ==> r.warning == Warn(r.config)
    ensures LoadsFile(f) && r.Returned? && r.err.None? ==>
              && GetConfigPath(env).Success? && GetConfigPath(env).value in files
              && var fc := decode(files[GetConfigPath(env).value]).fields;
              && r.config.serverPort == (if PortFlag in visited then f.port else fc.serverPort.GetOr(f.port))
              && r.config.baseDir == (if DirFlag in visited then f.dir else fc.dir.GetOr(""))
              && r.config.disallowListings ==
                 (if DisallowFlag in visited then f.disallowListings else fc.disallowListings.GetOr(f.disallowListings))
              && r.config.token == fc.token.GetOr("")
              && r.config.site == fc.site.GetOr("")
              && r.config.email == fc.email.GetOr("")
  {
    var c := FromFlags(f);
    if f.save then
      match GetConfigPath(env)
      case Failure(e) => Panicked(e.Text())
      case Success(path) => if saveErr.Some? then Returned(c, saveErr, None) else Saved(c, path)
    else if f.token == "" && f.site == "" && f.email == "" then
      match GetConfigPath(env)
      case Failure(e) => Panicked(e.Text())
      case Success(path) =>
        if path !in files then Returned(c, Some(Failed("open " + path + ": no such file or directory")), None)
        else
          var d := decode(files[path]);
          var loaded := Overlay(c, d.fields);
          if d.err.Some? then Returned(loaded, d.err, None)
          else
            var c' := Override(loaded, f, visited);
            Returned(c', None, Warn(c'))
    else Returned(c, None, Warn(c))
  }

  /** Outside the load branch neither the files nor the decoder are
      consulted, and the served directory stays empty. */
  lemma FileOnlyWhenFlagsEmpty(f: Flags, visited: set<string>, env: Env,
                               files: map<string, seq<byte>>, decode: seq<byte> -> Decoded,
                               files': map<string, seq<byte>>, decode': seq<byte> -> Decoded,
                               saveErr: Option<Error>)
    requires !LoadsFile(f)
    ensures ParseConfig(f, visited, env, files, decode, saveErr) == ParseConfig(f, visited, env, files', decode', saveErr)
    ensures var r := ParseConfig(f, visited, env, files, decode, saveErr);
            !r.Panicked? ==> r.config.baseDir == ""
  {
  }

  /** Two decoded files that agree on every member except those whose flag
      the command line named. */
  predicate AgreeUnlessNamed(fc: FileConfig, fc': FileConfig, visited: set<string>) {
    && (PortFlag !in visited ==> fc.serverPort == fc'.serverPort)
    && (DirFlag !in visited ==> fc.dir == fc'.dir)
    && (DisallowFlag !in visited ==> fc.disallowListings == fc'.disallowListings)
    && (fc.token, fc.site, fc.email) == (fc'.token, fc'.site, fc'.email)
  }

  /** A named -p, -dir or -disallow-listings wins over the file: once the file
      decodes cleanly, what it says for a named flag makes no difference. A
      decoding error is returned together with whatever was decoded, before
      the named flags are applied, so there the file's members do show. */
  lemma NamedFlagsOverrideFile(f: Flags, visited: set<string>, env: Env, files: map<string, seq<byte>>,
                               decode: seq<byte> -> Decoded, decode': seq<byte> -> Decoded,
                               saveErr: Option<Error>)
    requires GetConfigPath(env).Success? && GetConfigPath(env).value in files ==>
               var bytes := files[GetConfigPath(env).value];
               && decode(bytes).err == decode'(bytes).err
               && AgreeUnlessNamed(decode(bytes).fields, decode'(bytes).fields, visited)
    ensures var r := ParseConfig(f, visited, env, files, decode, saveErr);
            var r' := ParseConfig(f, visited, env, files, decode', saveErr);
            && (r.Returned? && r.err.None? <==> r'.Returned? && r'.err.None?)
            && (r.Returned? && r.err.None? ==> r == r')
            && (!LoadsFile(f) ==> r == r')
  {
  }

  /** A loaded configuration takes each setting from the named flag, else
      from the file, else from the flag's default. The served directory is
      the exception: with neither -dir nor a "dir" member it stays empty, not
      ".". */
  lemma LoadedFallbacks(f: Flags, visited: set<string>, env: Env, files: map<string, seq<byte>>,
                        decode: seq<byte> -> Decoded, saveErr: Option<Error>)
    requires LoadsFile(f) && Parsed(f, visited)
    ensures var r := ParseConfig(f, visited, env, files, decode, saveErr);
            r.Returned? && r.err.None? ==>
              var fc := decode(files[GetConfigPath(env).value]).fields;
              && r.config.serverPort == (if PortFlag in visited then f.port else fc.serverPort.GetOr(DefaultFlags.port))
              && r.config.disallowListings ==
                 (if DisallowFlag in visited then f.disallowListings else fc.disallowListings.GetOr(DefaultFlags.disallowListings))
              && r.config.baseDir == (if DirFlag in visited then f.dir else fc.dir.GetOr(""))
              && (DirFlag !in visited && fc.dir.None? ==> r.config.baseDir != DefaultFlags.dir)
  {
  }
}

=== FILE: filetree.dfy ===
/** The filesystem as the server sees it: a tree of directories and files
    standing in for `os.Stat`, `(*os.File).Readdir` and `filepath.Walk`. */
module FileTree {
  import opened Wrappers
  import opened Paths
  import opened Sorting

  /** A node of the filesystem.
      - `File.fault` is the error of the first call an archive walk makes for
        this file that fails (building its header, opening it, writing the
        header to the container, copying its bytes), or `None`.
      - `Dir.readErr` is the error reading the directory's names fails with.
      - `Unreadable` is an entry whose `lstat` fails; `err` is the reason,
        without the operation and path Go's `*PathError` puts in front. */
  datatype Node =
    | File(name: string, data: seq<byte>, fault: Option<string>)
    | Dir(name: string, children: seq<Node>, readErr: Option<string>)
    | Unreadable(name: string, err: string)

  function NameOf(n: Node): string {
    n.name
  }

  /** Below `n`, names are proper elements and unique within their directory.
      (The name of `n` itself is not constrained: it may be the filesystem root.) */
  ghost predicate WellFormed(n: Node) {
    n.Dir? ==>
      && DistinctBy(n.children, NameOf)
      && forall c :: c in n.children ==> IsName(c.name) && WellFormed(c)
  }

  // ---------------------------------------------------------------------------
  // os.Stat
  // ---------------------------------------------------------------------------

  /** What `os.Stat` reports: the node, a missing path (`os.IsNotExist`), or
      any other failure. */
  datatype Stat = NotExist | StatFailed(err: string) | Found(node: Node)

  const NotADirectory: string := "not a directory"

  /** The position of the first child called `name`, or `|cs|`. */
  function FindChild(cs: seq<Node>, name: string): (i: nat)
    ensures i <= |cs|
    ensures i < |cs| ==> cs[i].name == name
    ensures forall j :: 0 <= j < i ==> cs[j].name != name
  {
    if |cs| == 0 then 0
    else if cs[0].name == name then 0
    else 1 + FindChild(cs[1..], name)
  }

  /** The node at `elems` below `n`. A path through a file fails without being
      a missing path, as `ENOTDIR` does. */
  function Lookup(n: Node, elems: seq<string>): Stat
    decreases n
  {
    match n
    case Unreadable(_, e) => StatFailed(e)
    case File(_, _, _) => if |elems| == 0 then Found(n) else StatFailed(NotADirectory)
    case Dir(_, cs, _) =>
      if |elems| == 0 then Found(n)
      else
        var i := FindChild(cs, elems[0]);
        if i == |cs| then NotExist else Lookup(cs[i], elems[1..])
  }

  /** `os.Stat(path)` on the tree whose root is `root`. A relative path is
      taken from the working directory, which the model places at the root.
      A failure carries the `*PathError` text "stat <path>: <reason>". */
  function StatPath(root: Node, path: string): Stat {
    match Lookup(root, Lexical([Sep] + path).elems)
    case StatFailed(e) => StatFailed("stat " + path + ": " + e)
    case s => s
  }

  /** Looking one name further below a directory the lookup found picks that
      child, or misses when the directory has no entry of that name. */
  lemma {:induction false} LookupSnoc(n: Node, es: seq<string>, name: string)
    requires Lookup(n, es).Found? && Lookup(n, es).node.Dir?
    ensures var cs := Lookup(n, es).node.children;
            var i := FindChild(cs, name);
            Lookup(n, es + [name]) == if i == |cs| then NotExist else Lookup(cs[i], [])
    decreases n
  {
    if |es| == 0 {
      assert es + [name] == [name];
      assert [name][1..] == [];
    } else {
      var cs := n.children;
      var i := FindChild(cs, es[0]);
      assert (es + [name])[0] == es[0];
      assert (es + [name])[1..] == es[1..] + [name];
      LookupSnoc(cs[i], es[1..], name);
    }
  }

  /** `os.Stat` of a name joined onto a directory that `os.Stat` found: a
      missing name is `os.IsNotExist`, an entry whose `lstat` fails is a
      failure naming the joined path, and any other entry is found as it is. */
  lemma StatChild(root: Node, dir: string, name: string)
    requires |dir| > 0 && dir[0] == Sep
    requires IsName(name)
    requires StatPath(root, dir).Found? && StatPath(root, dir).node.Dir?
    ensures var cs := StatPath(root, dir).node.children;
            var i := FindChild(cs, name);
            var p := Join(dir, name);
            StatPath(root, p) ==
              if i == |cs| then NotExist
              else if cs[i].Unreadable? then StatFailed("stat " + p + ": " + cs[i].err)
              else Found(cs[i])
  {
    var p := Join(dir, name);
    JoinName(dir, name);
    LexicalExtraSep(dir);
    LexicalExtraSep(p);
    var es := Lexical([Sep] + dir).elems;
    assert Lexical([Sep] + p).elems == es + [name];
    LookupSnoc(root, es, name);
  }

  /** Stat'ing below a file fails with ENOTDIR's text, not as a missing path:
      with `/srv/a.txt` a file, `os.Stat("/srv/a.txt/x")` reports
      "stat /srv/a.txt/x: not a directory". */
  lemma StatBelowFile(dir: string, name: string, data: seq<byte>, rest: string)
    requires IsName(dir) && IsName(name) && IsName(rest)
    ensures var root := Dir("", [Dir(dir, [File(name, data, None)], None)], None);
            var path := [Sep] + dir + [Sep] + name + [Sep] + rest;
            StatPath(root, path) == StatFailed("stat " + path + ": " + NotADirectory)
  {
    var file := File(name, data, None);
    var sub := Dir(dir, [file], None);
    var root := Dir("", [sub], None);
    RootedThreeNames(dir, name, rest);
    assert FindChild([sub], dir) == 0;
    assert FindChild([file], name) == 0;
    assert [dir, name, rest][1..] == [name, rest];
    assert [name, rest][1..] == [rest];
    assert Lookup(file, [rest]) == StatFailed(NotADirectory);
    assert Lookup(sub, [name, rest]) == Lookup(file, [rest]);
    assert Lookup(root, [dir, name, rest]) == Lookup(sub, [name, rest]);
  }

  // ---------------------------------------------------------------------------
  // Readdir
  // ---------------------------------------------------------------------------

  /** The part of an `os.FileInfo` the listing uses. */
  datatype Info = Info(name: string, isDir: bool, size: nat)

  function InfoOf(n: Node): Info {
    Info(n.name, n.Dir?, if n.File? then |n.data| else 0)
  }

  /** The infos of `cs` in directory order; the first child whose `lstat`
      fails makes the whole read fail. */
  function Infos(cs: seq<Node>): (r: Result<seq<Info>, Error>)
    ensures r.Success? <==> forall i :: 0 <= i < |cs| ==> !cs[i].Unreadable?
    ensures r.Success? ==> |r.value| == |cs| && forall i :: 0 <= i < |cs| ==> r.value[i] == InfoOf(cs[i])
  {
    if |cs| == 0 then Success([])
    else if cs[0].Unreadable? then Failure(Failed(cs[0].err))
    else
      match Infos(cs[1..])
      case Failure(e) => Failure(e)
      case Success(rest) => Success([InfoOf(cs[0])] + rest)
  }

  /** `dir.Readdir(0)`: every entry of the directory, or the read error. */
  function ReadDir(n: Node): Result<seq<Info>, Error>
    requires n.Dir?
  {
    if n.readErr.Some? then Failure(Failed(n.readErr.value)) else Infos(n.children)
  }

  // ---------------------------------------------------------------------------
  // filepath.Walk
  // ---------------------------------------------------------------------------

  /** One call `filepath.Walk` makes to its callback: a directory (with the
      error reading its names, if any), a file, or an entry whose `lstat`
      failed. `path` is what Walk passes: the root as given, and below it
      `filepath.Join(parent, name)`. */
  datatype Visit =
    | DirVisit(path: string, readErr: Option<string>)
    | FileVisit(path: string, data: seq<byte>, fault: Option<string>)
    | ErrorVisit(path: string, lstatErr: string)

  /** Walk visits the children of a directory in byte-wise name order. */
  function WalkOrder(n: Node): (r: seq<Node>)
    requires n.Dir?
    ensures |r| == |n.children|
    ensures multiset(r) == multiset(n.children)
    ensures SortedBy(r, NameOf)
  {
    var r := SortBy(n.children, NameOf);
    assert |r| == |multiset(r)| == |multiset(n.children)| == |n.children|;
    r
  }

  function Fanout(n: Node): nat {
    if n.Dir? then |n.children| + 1 else 0
  }

  /** Every callback `filepath.Walk(path, fn)` makes, in order, for a callback
      that never returns an error: a node, then (for a readable directory)
      the subtrees of its children in name order. A directory whose names
      cannot be read is reported once, with the error, and not entered. */
  function Visits(path: string, n: Node): (r: seq<Visit>)
    ensures |r| > 0
    decreases n, Fanout(n)
  {
    match n
    case Unreadable(_, e) => [ErrorVisit(path, e)]
    case File(_, data, fault) => [FileVisit(path, data, fault)]
    case Dir(_, _, readErr) =>
      if readErr.Some? then [DirVisit(path, readErr)]
      else [DirVisit(path, None)] + ChildVisits(path, n, 0)
  }

  /** The subtrees of the children of `n` from position `i` of the walk order. */
  function ChildVisits(path: string, n: Node, i: nat): seq<Visit>
    requires n.Dir? && i <= |n.children|
    decreases n, |n.children| - i
  {
    var order := WalkOrder(n);
    if i == |order| then []
    else
      var c := order[i];
      assert c in multiset(n.children);
      Visits(Join(path, c.name), c) + ChildVisits(path, n, i + 1)
  }

  /** `q` is strictly below `p`. */
  predicate StrictlyBelow(q: Path, p: Path) {
    Contained(q, p) && |q.elems| > |p.elems|
  }

  /** Every visit in `vs` is strictly below `p`. */
  ghost predicate AllBelow(vs: seq<Visit>, p: Path) {
    forall j :: 0 <= j < |vs| ==> StrictlyBelow(Lexical(vs[j].path), p)
  }

  lemma AllBelowConcat(a: seq<Visit>, b: seq<Visit>, p: Path)
    requires AllBelow(a, p) && AllBelow(b, p)
    ensures AllBelow(a + b, p)
  {
    forall j | 0 <= j < |a + b|
      ensures StrictlyBelow(Lexical((a + b)[j].path), p)
    {
      if j >= |a| {
        assert (a + b)[j] == b[j - |a|];
      }
    }
  }

  /** Walking from a rooted path, the first visit is the root itself and every
      later visit is strictly below it. */
  lemma {:induction false} VisitsBelow(path: string, n: Node)
    requires |path| > 0 && path[0] == Sep
    requires WellFormed(n)
    ensures Visits(path, n)[0].path == path
    ensures AllBelow(Visits(path, n)[1..], Lexical(path))
    decreases n, Fanout(n)
  {
    var vs := Visits(path, n);
    if n.Dir? && n.readErr.None? {
      var cs := ChildVisits(path, n, 0);
      assert vs == [DirVisit(path, None)] + cs;
      assert vs[1..] == cs;
      ChildVisitsBelow(path, n, 0);
    } else {
      assert |vs| == 1;
      assert vs[1..] == [];
    }
  }

  /** The visits of a child's subtree lie strictly below the parent. */
  lemma {:induction false} SubtreeBelow(path: string, c: Node)
    requires |path| > 0 && path[0] == Sep
    requires IsName(c.name) && WellFormed(c)
    ensures AllBelow(Visits(Join(path, c.name), c), Lexical(path))
    decreases c, Fanout(c) + 1
  {
    var cp := Join(path, c.name);
    JoinName(path, c.name);
    VisitsBelow(cp, c);
    var vs := Visits(cp, c);
    var lp := Lexical(path).elems;
    forall j | 0 <= j < |vs|
      ensures StrictlyBelow(Lexical(vs[j].path), Lexical(path))
    {
      var lv := Lexical(vs[j].path).elems;
      if j > 0 {
        assert vs[j] == vs[1..][j - 1];
        assert lv[..|lp| + 1] == lp + [c.name];
        assert lv[..|lp|] == lv[..|lp| + 1][..|lp|];
      } else {
        assert lv == lp + [c.name];
      }
    }
  }

  lemma {:induction false} ChildVisitsBelow(path: string, n: Node, i: nat)
    requires |path| > 0 && path[0] == Sep
    requires WellFormed(n)
    requires n.Dir? && i <= |n.children|
    ensures AllBelow(ChildVisits(path, n, i), Lexical(path))
    decreases n, |n.children| - i
  {
    var order := WalkOrder(n);
    if i < |order| {
      var c := order[i];
      assert c in multiset(n.children);
      assert c in n.children;
      SubtreeBelow(path, c);
      ChildVisitsBelow(path, n, i + 1);
      AllBelowConcat(Visits(Join(path, c.name), c), ChildVisits(path, n, i + 1), Lexical(path));
    }
  }

  // ---------------------------------------------------------------------------
  // The files a walk visits
  // ---------------------------------------------------------------------------

  /** Nothing below `n` fails: every entry can be stat'ed, every directory
      read and every file archived. */
  ghost predicate Sound(n: Node) {
    match n
    case Unreadable(_, _) => false
    case File(_, _, fault) => fault.None?
    case Dir(_, cs, readErr) => readErr.None? && forall c :: c in cs ==> Sound(c)
  }

  /** A visit that reports no error. */
  predicate Harmless(v: Visit) {
    match v
    case ErrorVisit(_, _) => false
    case DirVisit(_, readErr) => readErr.None?
    case FileVisit(_, _, fault) => fault.None?
  }

  ghost predicate AllHarmless(vs: seq<Visit>) {
    forall j :: 0 <= j < |vs| ==> Harmless(vs[j])
  }

  /** A walk over a sound subtree reports no error. */
  lemma {:induction false} SoundVisits(path: string, n: Node)
    requires Sound(n)
    ensures AllHarmless(Visits(path, n))
    decreases n, Fanout(n)
  {
    if n.Dir? {
      SoundChildVisits(path, n, 0);
    }
  }

  lemma {:induction false} SoundChildVisits(path: string, n: Node, i: nat)
    requires Sound(n)
    requires n.Dir? && i <= |n.children|
    ensures AllHarmless(ChildVisits(path, n, i))
    decreases n, |n.children| - i
  {
    var order := WalkOrder(n);
    if i < |order| {
      var c := order[i];
      assert c in multiset(n.children);
      assert c in n.children;
      SoundVisits(Join(path, c.name), c);
      SoundChildVisits(path, n, i + 1);
    }
  }

  /** A file, with its path relative to some directory. */
  type FileAt = (seq<string>, seq<byte>)

  /** Every file of `fs` moved one level down, into a directory called `x`. */
  ghost function Prefix(x: string, fs: set<FileAt>): set<FileAt> {
    set f | f in fs :: ([x] + f.0, f.1)
  }

  /** The files of the subtree at `n`, with their paths relative to `n`. */
  ghost function FilesBelow(n: Node): set<FileAt>
    decreases n
  {
    match n
    case Unreadable(_, _) => {}
    case File(_, data, _) => {([], data)}
    case Dir(_, cs, _) => set c, f | c in cs && f in FilesBelow(c) :: ([c.name] + f.0, f.1)
  }

  /** The files below the nodes `cs`, each under the node's name. */
  ghost function Under(cs: seq<Node>): set<FileAt> {
    set c, f | c in cs && f in FilesBelow(c) :: ([c.name] + f.0, f.1)
  }

  lemma UnderCons(cs: seq<Node>)
    requires |cs| > 0
    ensures Under(cs) == Prefix(cs[0].name, FilesBelow(cs[0])) + Under(cs[1..])
  {
    assert forall c :: c in cs <==> c == cs[0] || c in cs[1..];
  }

  /** The files below a set of nodes do not depend on their order. */
  lemma UnderPermuted(a: seq<Node>, b: seq<Node>)
    requires multiset(a) == multiset(b)
    ensures Under(a) == Under(b)
  {
    forall c
      ensures c in a <==> c in b
    {
      assert c in a <==> c in multiset(a);
      assert c in b <==> c in multiset(b);
    }
  }

  /** `es` with its first `m` elements removed. */
  function Drop(es: seq<string>, m: nat): seq<string> {
    if m <= |es| then es[m..] else []
  }

  /** The files `vs` visits, their paths with the first `m` elements removed. */
  ghost function FileSet(vs: seq<Visit>, m: nat): set<FileAt> {
    if |vs| == 0 then {} else VisitFile(vs[0], m) + FileSet(vs[1..], m)
  }

  /** The file one visit reaches, its path with the first `m` elements removed. */
  ghost function VisitFile(v: Visit, m: nat): set<FileAt> {
    if v.FileVisit? then {(Drop(Lexical(v.path).elems, m), v.data)} else {}
  }

  lemma {:induction false} FileSetConcat(a: seq<Visit>, b: seq<Visit>, m: nat)
    ensures FileSet(a + b, m) == FileSet(a, m) + FileSet(b, m)
  {
    if |a| == 0 {
      assert a + b == b;
    } else {
      assert (a + b)[1..] == a[1..] + b;
      FileSetConcat(a[1..], b, m);
    }
  }

  lemma PrefixUnion(x: string, a: set<FileAt>, b: set<FileAt>)
    ensures Prefix(x, a + b) == Prefix(x, a) + Prefix(x, b)
  {
  }

  /** The files visited inside `p`, counted from the level of `p`'s last
      element `x`, are those counted from inside `p`, each under `x`. */
  lemma {:induction false} FileSetShift(vs: seq<Visit>, p: Path)
    requires |p.elems| > 0
    requires forall j :: 0 <= j < |vs| ==> Contained(Lexical(vs[j].path), p)
    ensures var m := |p.elems| - 1;
            FileSet(vs, m) == Prefix(p.elems[m], FileSet(vs, m + 1))
    decreases |vs|
  {
    var m := |p.elems| - 1;
    var x := p.elems[m];
    if |vs| > 0 {
      FileSetShift(vs[1..], p);
      var v := vs[0];
      var es := Lexical(v.path).elems;
      var head: set<FileAt> := if v.FileVisit? then {(Drop(es, m + 1), v.data)} else {};
      if v.FileVisit? {
        assert es[..m + 1] == p.elems;
        assert es[m..] == [x] + es[m + 1..];
        assert Prefix(x, head) == {(Drop(es, m), v.data)};
      } else {
        assert Prefix(x, head) == {};
      }
      PrefixUnion(x, head, FileSet(vs[1..], m + 1));
    }
  }

  /** A walk from a rooted path over a sound subtree visits exactly the
      subtree's files, each at the walked path followed by its path in the
      subtree. */
  lemma {:induction false} VisitsFiles(path: string, n: Node)
    requires |path| > 0 && path[0] == Sep
    requires WellFormed(n) && Sound(n)
    ensures FileSet(Visits(path, n), |Lexical(path).elems|) == FilesBelow(n)
    decreases n, Fanout(n)
  {
    var m := |Lexical(path).elems|;
    var vs := Visits(path, n);
    match n
    case File(_, data, _) =>
      assert vs[1..] == [];
      assert Drop(Lexical(path).elems, m) == [];
    case Dir(_, cs, _) =>
      assert vs[1..] == ChildVisits(path, n, 0);
      ChildFiles(path, n, 0);
      var order := WalkOrder(n);
      assert order[0..] == order;
      UnderPermuted(order, cs);
    case Unreadable(_, _) =>
  }

  lemma {:induction false} ChildFiles(path: string, n: Node, i: nat)
    requires |path| > 0 && path[0] == Sep
    requires WellFormed(n) && Sound(n)
    requires n.Dir? && i <= |n.children|
    ensures FileSet(ChildVisits(path, n, i), |Lexical(path).elems|) == Under(WalkOrder(n)[i..])
    decreases n, |n.children| - i
  {
    var m := |Lexical(path).elems|;
    var order := WalkOrder(n);
    if i < |order| {
      var c := order[i];
      assert c in multiset(n.children);
      assert c in n.children;
      SubtreeFiles(path, c);
      ChildFiles(path, n, i + 1);
      FileSetConcat(Visits(Join(path, c.name), c), ChildVisits(path, n, i + 1), m);
      UnderCons(order[i..]);
      assert order[i..][1..] == order[i + 1..];
    } else {
      assert order[i..] == [];
    }
  }

  /** The files a child's subtree contributes sit under the child's name. */
  lemma {:induction false} SubtreeFiles(path: string, c: Node)
    requires |path| > 0 && path[0] == Sep
    requires IsName(c.name) && WellFormed(c) && Sound(c)
    ensures FileSet(Visits(Join(path, c.name), c), |Lexical(path).elems|) == Prefix(c.name, FilesBelow(c))
    decreases c, Fanout(c) + 1
  {
    var cp := Join(path, c.name);
    JoinName(path, c.name);
    VisitsBelow(cp, c);
    VisitsFiles(cp, c);
    var vs := Visits(cp, c);
    var p := Lexical(cp);
    forall j | 0 <= j < |vs|
      ensures Contained(Lexical(vs[j].path), p)
    {
      if j > 0 {
        assert vs[j] == vs[1..][j - 1];
      } else {
        assert p.elems[..|p.elems|] == p.elems;
      }
    }
    FileSetShift(vs, p);
  }
}

=== FILE: network.dfy ===
/** main.go: `externalIP`, the address the local HTTP server is announced
    on. Interfaces and their addresses are inputs; `net.IP` is its byte
    sequence, with the IPv4-in-IPv6 layout of section 2.5.5.2 of RFC 4291. */
module Network {
  import opened Wrappers

  const FlagUp: bv32 := 1
  const FlagLoopback: bv32 := 4

  /** An interface address: `*net.IPNet`, `*net.IPAddr`, or another kind,
      which yields no IP. */
  datatype Addr = IPNet(ip: seq<byte>) | IPAddr(ip: seq<byte>) | OtherAddr

  /** A network interface: its flags and what `Addrs` returns for it. */
  datatype Interface = Interface(flags: bv32, addrs: Result<seq<Addr>, Error>)

  const NotConnected: string := "are you connected to the network?"

  /** The IP of an address; empty stands for a nil `net.IP`. */
  function IPOf(a: Addr): seq<byte> {
    match a
    case IPNet(ip) => ip
    case IPAddr(ip) => ip
    case OtherAddr => []
  }

  const V4InV6Prefix: seq<byte> := [0, 0, 0, 0, 0, 0, 0, 0, 0, 0, 0xFF, 0xFF]
  const IPv6Loopback: seq<byte> := [0, 0, 0, 0, 0, 0, 0, 0, 0, 0, 0, 0, 0, 0, 0, 1]

  /** `ip.To4()`: a 4-byte IP as is, the last four bytes of an IPv4-mapped
      16-byte IP, otherwise nil. */
  function To4(ip: seq<byte>): (r: Option<seq<byte>>)
    ensures r.Some? ==> |r.value| == 4 && |ip| >= 4 && r.value == ip[|ip| - 4..]
    ensures r.Some? <==> |ip| == 4 || (|ip| == 16 && ip[..12] == V4InV6Prefix)
  {
    if |ip| == 4 then Some(ip)
    else if |ip| == 16 && ip[..12] == V4InV6Prefix then Some(ip[12..])
    else None
  }

  /** `ip.IsLoopback()`: 127.0.0.0/8 for IPv4, `::1` otherwise. (`ip.Equal`
      with `::1` holds only for `::1` itself, which has no IPv4 form.) */
  predicate IsLoopback(ip: seq<byte>) {
    match To4(ip)
    case Some(v4) => v4[0] == 127
    case None => ip == IPv6Loopback
  }

  /** An address `externalIP` may return: a non-nil, non-loopback IPv4 IP. */
  predicate Qualifies(a: Addr) {
    var ip := IPOf(a);
    |ip| != 0 && !IsLoopback(ip) && To4(ip).Some?
  }

  /** An interface `externalIP` looks into: up and not a loopback. */
  predicate Eligible(iface: Interface) {
    iface.flags & FlagUp != 0 && iface.flags & FlagLoopback == 0
  }

  /** The position of the first qualifying address, or `|addrs|`. */
  function FirstQualifying(addrs: seq<Addr>): (j: nat)
    ensures j <= |addrs|
    ensures forall h :: 0 <= h < j ==> !Qualifies(addrs[h])
    ensures j < |addrs| ==> Qualifies(addrs[j])
  {
    if |addrs| == 0 then 0
    else if Qualifies(addrs[0]) then 0
    else 1 + FirstQualifying(addrs[1..])
  }

  /** The search ends at this interface: it is eligible and its addresses
      either cannot be listed or include a qualifying one. */
  predicate Stops(iface: Interface) {
    Eligible(iface) &&
    (iface.addrs.Failure? || FirstQualifying(iface.addrs.value) < |iface.addrs.value|)
  }

  /** The position of the first interface the search ends at, or `|ifs|`. */
  function FirstStop(ifs: seq<Interface>): (k: nat)
    ensures k <= |ifs|
    ensures forall h :: 0 <= h < k ==> !Stops(ifs[h])
    ensures k < |ifs| ==> Stops(ifs[k])
  {
    if |ifs| == 0 then 0
    else if Stops(ifs[0]) then 0
    else 1 + FirstStop(ifs[1..])
  }

  // ---------------------------------------------------------------------------
  // Dotted decimal
  // ---------------------------------------------------------------------------

  function DigitChar(d: nat): (c: char)
    requires d < 10
    ensures '0' <= c <= '9'
  {
    (48 + d) as char
  }

  /** The decimal digits of a number below 256, without leading zeros. */
  function DecimalDigits(n: nat): (r: string)
    requires n < 256
    ensures 1 <= |r| <= 3
    ensures forall i :: 0 <= i < |r| ==> '0' <= r[i] <= '9'
  {
    if n < 10 then [DigitChar(n)]
    else if n < 100 then [DigitChar(n / 10), DigitChar(n % 10)]
    else [DigitChar(n / 100), DigitChar(n / 10 % 10), DigitChar(n % 10)]
  }

  /** The decimal digits of a byte. */
  function Decimal(b: byte): (r: string)
    ensures 1 <= |r| <= 3
    ensures forall i :: 0 <= i < |r| ==> '0' <= r[i] <= '9'
  {
    DecimalDigits(b as nat)
  }

  /** Each byte of `bs` in decimal, each after a dot. */
  function DotTail(bs: seq<byte>): string {
    if |bs| == 0 then "" else "." + Decimal(bs[0]) + DotTail(bs[1..])
  }

  /** `ip.String()` of a 4-byte IP: its bytes in decimal, joined by dots. */
  function Dotted(v4: seq<byte>): string
    requires |v4| == 4
  {
    Decimal(v4[0]) + DotTail(v4[1..])
  }

  /** The number of ASCII digits `s` starts with. */
  function LeadingDigits(s: string): (k: nat)
    ensures k <= |s|
    ensures forall i :: 0 <= i < k ==> '0' <= s[i] <= '9'
    ensures k < |s| ==> !('0' <= s[k] <= '9')
  {
    if |s| == 0 || !('0' <= s[0] <= '9') then 0 else 1 + LeadingDigits(s[1..])
  }

  /** The value of a string of decimal digits. */
  function DecimalValue(s: string): nat
    requires forall i :: 0 <= i < |s| ==> '0' <= s[i] <= '9'
  {
    if |s| == 0 then 0
    else 10 * DecimalValue(s[..|s| - 1]) + (s[|s| - 1] as nat - 48)
  }

  /** A decimal byte at the front of `s`, and the rest of `s`. */
  function ParseOctet(s: string): Option<(byte, string)> {
    var k := LeadingDigits(s);
    if k == 0 || k > 3 || DecimalValue(s[..k]) > 255 then None
    else Some((DecimalValue(s[..k]) as byte, s[k..]))
  }

  /** Exactly `n` bytes, each a dot then a decimal byte, and nothing after. */
  function ParseDotOctets(s: string, n: nat): Option<seq<byte>> {
    if n == 0 then (if s == [] then Some([]) else None)
    else if |s| == 0 || s[0] != '.' then None
    else
      match ParseOctet(s[1..])
      case None => None
      case Some(p) =>
        match ParseDotOctets(p.1, n - 1)
        case None => None
        case Some(rest) => Some([p.0] + rest)
  }

  /** Reads four dot-separated decimal bytes, and nothing else. */
  function ParseDotted(s: string): Option<seq<byte>> {
    match ParseOctet(s)
    case None => None
    case Some(p) =>
      match ParseDotOctets(p.1, 3)
      case None => None
      case Some(rest) => Some([p.0] + rest)
  }

  lemma DecimalValueDigits(s: string)
    requires |s| <= 3 && forall i :: 0 <= i < |s| ==> '0' <= s[i] <= '9'
    ensures |s| == 1 ==> DecimalValue(s) == s[0] as nat - 48
    ensures |s| == 2 ==> DecimalValue(s) == 10 * (s[0] as nat - 48) + (s[1] as nat - 48)
    ensures |s| == 3 ==> DecimalValue(s) == 100 * (s[0] as nat - 48) + 10 * (s[1] as nat - 48) + (s[2] as nat - 48)
  {
    if |s| >= 2 {
      assert s[..|s| - 1][..|s| - 2] == s[..|s| - 2];
      assert s[..|s| - 1][0] == s[0];
    }
    if |s| == 3 {
      assert s[..2][..1] == s[..1];
    }
  }

  lemma DigitValue(d: nat)
    requires d < 10
    ensures DigitChar(d) as nat - 48 == d
  {
  }

  lemma DecimalDigitsValue(n: nat)
    requires n < 256
    ensures DecimalValue(DecimalDigits(n)) == n
  {
    var r := DecimalDigits(n);
    DecimalValueDigits(r);
    DigitValue(n % 10);
    if n >= 100 {
      DigitValue(n / 100);
      DigitValue(n / 10 % 10);
      assert n == 100 * (n / 100) + 10 * (n / 10 % 10) + n % 10;
    } else if n >= 10 {
      DigitValue(n / 10);
    }
  }

  lemma DecimalValueOf(b: byte)
    ensures DecimalValue(Decimal(b)) == b as nat
    ensures (DecimalValue(Decimal(b)) as byte) == b
  {
    DecimalDigitsValue(b as nat);
  }

  /** A decimal byte followed by a dot or the end reads back as that byte. */
  lemma ParseOctetDecimal(b: byte, rest: string)
    requires rest == [] || rest[0] == '.'
    ensures ParseOctet(Decimal(b) + rest) == Some((b, rest))
  {
    var r := Decimal(b);
    var s := r + rest;
    assert forall i :: 0 <= i < |r| ==> s[i] == r[i];
    assert LeadingDigits(s) == |r|;
    assert s[..|r|] == r;
    assert s[|r|..] == rest;
    DecimalValueOf(b);
  }

  lemma DotTailCons(bs: seq<byte>)
    requires |bs| > 0
    ensures |DotTail(bs)| > 0 && DotTail(bs)[0] == '.'
    ensures DotTail(bs)[1..] == Decimal(bs[0]) + DotTail(bs[1..])
  {
    assert DotTail(bs) == ['.'] + (Decimal(bs[0]) + DotTail(bs[1..]));
  }

  lemma {:induction false} DotTailRoundTrip(bs: seq<byte>)
    ensures ParseDotOctets(DotTail(bs), |bs|) == Some(bs)
  {
    if |bs| > 0 {
      var t := DotTail(bs);
      var tail := DotTail(bs[1..]);
      DotTailCons(bs);
      ParseOctetDecimal(bs[0], tail);
      DotTailRoundTrip(bs[1..]);
      assert ParseDotOctets(t, |bs|) == Some([bs[0]] + bs[1..]);
      assert [bs[0]] + bs[1..] == bs;
    }
  }

  /** A leading byte that reads back, followed by three dotted bytes that
      read back, gives the whole dotted quad. */
  lemma ParseDottedCons(b: byte, tail: string, rest: seq<byte>)
    requires ParseOctet(Decimal(b) + tail) == Some((b, tail))
    requires ParseDotOctets(tail, 3) == Some(rest)
    ensures ParseDotted(Decimal(b) + tail) == Some([b] + rest)
  {
  }

  /** A byte in decimal followed by three dotted bytes reads back as all four. */
  lemma DottedFromParts(b: byte, rest: seq<byte>)
    requires |rest| == 3
    ensures ParseDotted(Decimal(b) + DotTail(rest)) == Some([b] + rest)
  {
    var tail := DotTail(rest);
    DotTailCons(rest);
    ParseOctetDecimal(b, tail);
    DotTailRoundTrip(rest);
    ParseDottedCons(b, tail, rest);
  }

  /** `Dotted` loses nothing: parsing the text gives the four bytes back. */
  lemma DottedRoundTrip(v4: seq<byte>)
    requires |v4| == 4
    ensures ParseDotted(Dotted(v4)) == Some(v4)
  {
    DottedFromParts(v4[0], v4[1..]);
    assert [v4[0]] + v4[1..] == v4;
  }

  // ---------------------------------------------------------------------------
  // externalIP
  // ---------------------------------------------------------------------------

  /** `externalIP`: interfaces in order, skipping those that are down or
      loopback; the first eligible interface whose `Addrs` fails ends the
      search with that error; otherwise the first non-nil, non-loopback IPv4
      address, in dotted decimal. With none, a fixed error. */
  method ExternalIP(interfaces: Result<seq<Interface>, Error>) returns (ip: string, err: Option<Error>)
    ensures interfaces.Failure? ==> ip == "" && err == Some(interfaces.error)
    ensures interfaces.Success? ==>
              var ifs := interfaces.value;
              var k := FirstStop(ifs);
              && (k == |ifs| ==> ip == "" && err == Some(Failed(NotConnected)))
              && (k < |ifs| && ifs[k].addrs.Failure? ==> ip == "" && err == Some(ifs[k].addrs.error))
              && (k < |ifs| && ifs[k].addrs.Success? ==>
                    var addrs := ifs[k].addrs.value;
                    && err.None?
                    && ip == Dotted(To4(IPOf(addrs[FirstQualifying(addrs)])).value))
  {
    if interfaces.Failure? {
      return "", Some(interfaces.error);
    }
    var ifs := interfaces.value;
    var i := 0;
    while i < |ifs|
      invariant 0 <= i <= |ifs|
      invariant forall h :: 0 <= h < i ==> !Stops(ifs[h])
    {
      var iface := ifs[i];
      if iface.flags & FlagUp == 0 || iface.flags & FlagLoopback != 0 {
        i := i + 1;
        continue;
      }
      if iface.addrs.Failure? {
        return "", Some(iface.addrs.error);
      }
      var addrs := iface.addrs.value;
      var j := 0;
      while j < |addrs|
        invariant 0 <= j <= |addrs|
        invariant forall h :: 0 <= h < j ==> !Qualifies(addrs[h])
      {
        var a := IPOf(addrs[j]);
        if |a| == 0 || IsLoopback(a) {
          j := j + 1;
          continue;
        }
        var v4 := To4(a);
        if v4.None? {
          j := j + 1;
          continue;
        }
        assert FirstQualifying(addrs) == j;
        return Dotted(v4.value), None;
      }
      assert FirstQualifying(addrs) == |addrs|;
      i := i + 1;
    }
    return "", Some(Failed(NotConnected));
  }

  /** Any interface before the one `externalIP` answers from is down, a
      loopback, or lists only addresses that are nil, loopback or not IPv4. */
  lemma SkippedBeforeAnswer(ifs: seq<Interface>, h: nat)
    requires h < FirstStop(ifs)
    ensures !Eligible(ifs[h]) ||
            (ifs[h].addrs.Success? && forall a :: a in ifs[h].addrs.value ==> !Qualifies(a))
  {
    var iface := ifs[h];
    if Eligible(iface) {
      assert iface.addrs.Success?;
      var addrs := iface.addrs.value;
      forall a | a in addrs
        ensures !Qualifies(a)
      {
        var j :| 0 <= j < |addrs| && addrs[j] == a;
      }
    }
  }
}

=== FILE: paths.dfy ===
/** Lexical path manipulation in the style of Go's `path/filepath` on a Unix
    system (`Clean`, `Join`, `Rel`, `Base`) together with `strings.TrimPrefix`.
    A path string is read as a sequence of elements separated by '/'; a clean
    path is kept as a `Path` value, and `Render` turns it back into the string
    Go would print. */
module Paths {
  import opened Wrappers

  const Sep: char := '/'
  const Parent: string := ".."
  const Current: string := "."

  // ---------------------------------------------------------------------------
  // Elements of a path string
  // ---------------------------------------------------------------------------

  /** The elements of `s` between separators, empty ones included:
      `Split("/a//b") == ["", "a", "", "b"]`. */
  function Split(s: string): (r: seq<string>)
    ensures |r| >= 1
    ensures forall i :: 0 <= i < |r| ==> Sep !in r[i]
  {
    if |s| == 0 then [""]
    else
      var rest := Split(s[1..]);
      if s[0] == Sep then [""] + rest
      else [[s[0]] + rest[0]] + rest[1..]
  }

  /** An element that names a child: not empty, not "." or "..", no separator. */
  predicate IsName(e: string) {
    e != "" && e != Current && e != Parent && Sep !in e
  }

  predicate AllNames(es: seq<string>) {
    forall i :: 0 <= i < |es| ==> IsName(es[i])
  }

  /** A path whose elements have already been through Go's `Clean`. */
  datatype Path = Path(rooted: bool, elems: seq<string>)

  /** What `Clean` guarantees: every element is a name or "..", a rooted path
      never climbs, and a relative one climbs only at its front. */
  predicate Canonical(p: Path) {
    && (forall i :: 0 <= i < |p.elems| ==> p.elems[i] == Parent || IsName(p.elems[i]))
    && (p.rooted ==> forall i :: 0 <= i < |p.elems| ==> p.elems[i] != Parent)
    && (forall i, j :: 0 <= i < j < |p.elems| && p.elems[j] == Parent ==> p.elems[i] == Parent)
  }

  // ---------------------------------------------------------------------------
  // Clean
  // ---------------------------------------------------------------------------

  /** One turn of Go's `Clean` loop: empty elements and "." vanish, ".."
      cancels the last name (vanishes at the root of a rooted path, and is
      kept on a relative path that has nothing left to cancel), any other
      element is appended. */
  function Step(rooted: bool, acc: seq<string>, e: string): seq<string> {
    if e == "" || e == Current then acc
    else if e == Parent then
      if |acc| > 0 && acc[|acc| - 1] != Parent then acc[..|acc| - 1]
      else if rooted then acc
      else acc + [Parent]
    else acc + [e]
  }

  /** Go's `Clean` loop run over `es`, starting from the elements `acc`. */
  function Resolve(rooted: bool, acc: seq<string>, es: seq<string>): seq<string>
    decreases |es|
  {
    if |es| == 0 then acc else Resolve(rooted, Step(rooted, acc, es[0]), es[1..])
  }

  /** `filepath.Clean(s)` as a path value. */
  function Lexical(s: string): (p: Path)
    ensures Canonical(p)
    ensures p.rooted <==> |s| > 0 && s[0] == Sep
  {
    var rooted := |s| > 0 && s[0] == Sep;
    ResolveKeepsCanonical(rooted, [], Split(s));
    Path(rooted, Resolve(rooted, [], Split(s)))
  }

  /** The elements joined by single separators. */
  function JoinElems(es: seq<string>): string {
    if |es| == 0 then ""
    else if |es| == 1 then es[0]
    else es[0] + [Sep] + JoinElems(es[1..])
  }

  /** The string Go prints for a clean path: "/" for the root, "." for the
      empty relative path. */
  function Render(p: Path): string {
    if p.rooted then [Sep] + JoinElems(p.elems)
    else if |p.elems| == 0 then Current
    else JoinElems(p.elems)
  }

  /** `filepath.Clean`. */
  function Clean(s: string): string {
    Render(Lexical(s))
  }

  /** `filepath.Join(a, b)`: empty leading elements are ignored, the rest are
      joined with a separator and cleaned; all empty gives "". */
  function Join(a: string, b: string): string {
    if a != "" then Clean(a + [Sep] + b)
    else if b != "" then Clean(b)
    else ""
  }

  // ---------------------------------------------------------------------------
  // Rel
  // ---------------------------------------------------------------------------

  /** The length of the longest common prefix of `a` and `b`. */
  function CommonPrefix(a: seq<string>, b: seq<string>): (k: nat)
    ensures k <= |a| && k <= |b|
    ensures a[..k] == b[..k]
    ensures k < |a| && k < |b| ==> a[k] != b[k]
  {
    if |a| == 0 || |b| == 0 || a[0] != b[0] then 0
    else 1 + CommonPrefix(a[1..], b[1..])
  }

  /** `n` parent-directory elements. */
  function Ups(n: nat): (r: seq<string>)
    ensures |r| == n
    ensures forall i :: 0 <= i < n ==> r[i] == Parent
  {
    seq(n, _ => Parent)
  }

  function RelError(basepath: string, targpath: string): Error {
    Failed("Rel: can't make " + targpath + " relative to " + basepath)
  }

  /** `filepath.Rel(basepath, targpath)`: both are cleaned; equal paths give
      "."; a rooted and a relative path cannot be related; otherwise the
      common prefix is dropped, every remaining base element becomes "..",
      and the remaining target elements follow. A remaining base element that
      is itself ".." cannot be undone and is an error. A base of "." counts
      as no elements, but a target of "." keeps its text, so climbing to it
      ends in "/.". */
  function Rel(basepath: string, targpath: string): Result<string, Error> {
    var base := Lexical(basepath);
    var targ := Lexical(targpath);
    if Render(targ) == Render(base) then Success(Current)
    else if base.rooted != targ.rooted then Failure(RelError(basepath, targpath))
    else
      var k := CommonPrefix(base.elems, targ.elems);
      if k < |base.elems| && base.elems[k] == Parent then Failure(RelError(basepath, targpath))
      else
        var rel := Render(Path(false, Ups(|base.elems| - k) + targ.elems[k..]));
        Success(if !targ.rooted && |targ.elems| == 0 then rel + [Sep] + Current else rel)
  }

  // ---------------------------------------------------------------------------
  // Base and TrimPrefix
  // ---------------------------------------------------------------------------

  function TrimTrailingSeps(s: string): (r: string)
    ensures |r| <= |s| && r == s[..|r|]
    ensures |r| > 0 ==> r[|r| - 1] != Sep
  {
    if |s| > 0 && s[|s| - 1] == Sep then TrimTrailingSeps(s[..|s| - 1]) else s
  }

  /** The part of `s` after its last separator. */
  function LastElem(s: string): (r: string)
    ensures Sep !in r
    ensures |r| <= |s| && r == s[|s| - |r|..]
  {
    if |s| == 0 || s[|s| - 1] == Sep then ""
    else LastElem(s[..|s| - 1]) + [s[|s| - 1]]
  }

  /** `filepath.Base`: "." for "", "/" for a path of separators only,
      otherwise the last element once trailing separators are removed. */
  function Base(path: string): string {
    if path == "" then Current
    else
      var last := LastElem(TrimTrailingSeps(path));
      if last == "" then [Sep] else last
  }

  /** `strings.TrimPrefix`. */
  function TrimPrefix(s: string, prefix: string): (r: string)
    ensures prefix <= s ==> s == prefix + r
    ensures !(prefix <= s) ==> r == s
  {
    if prefix <= s then s[|prefix|..] else s
  }

  // ---------------------------------------------------------------------------
  // Containment
  // ---------------------------------------------------------------------------

  /** `p` is `root` or lies below it, element by element. */
  predicate Contained(p: Path, root: Path) {
    p.rooted == root.rooted && |root.elems| <= |p.elems| && p.elems[..|root.elems|] == root.elems
  }

  /** A relative path whose first element climbs to the parent directory. */
  predicate Climbs(rel: string) {
    var p := Lexical(rel);
    |p.elems| > 0 && p.elems[0] == Parent
  }

  // ---------------------------------------------------------------------------
  // Lemmas about Split and Render
  // ---------------------------------------------------------------------------

  /** Extending the first element of `ra` commutes with appending `rb`. */
  lemma ExtendHead(c: char, ra: seq<string>, rb: seq<string>)
    requires |ra| > 0
    ensures [[c] + (ra + rb)[0]] + (ra + rb)[1..] == ([[c] + ra[0]] + ra[1..]) + rb
  {
    assert (ra + rb)[0] == ra[0];
    assert (ra + rb)[1..] == ra[1..] + rb;
  }

  lemma {:induction false} SplitConcat(a: string, b: string)
    ensures Split(a + [Sep] + b) == Split(a) + Split(b)
  {
    var s := a + [Sep] + b;
    if |a| == 0 {
      assert s == [Sep] + b;
      assert s[1..] == b;
    } else {
      assert s[0] == a[0];
      assert s[1..] == a[1..] + [Sep] + b;
      SplitConcat(a[1..], b);
      if a[0] != Sep {
        ExtendHead(a[0], Split(a[1..]), Split(b));
      }
    }
  }

  lemma {:induction false} SplitName(x: string)
    requires Sep !in x
    ensures Split(x) == [x]
  {
    if |x| > 0 {
      SplitName(x[1..]);
      assert [x[0]] + x[1..] == x;
    }
  }

  lemma {:induction false} SplitJoinElems(es: seq<string>)
    requires |es| >= 1
    requires forall i :: 0 <= i < |es| ==> Sep !in es[i]
    ensures Split(JoinElems(es)) == es
  {
    if |es| == 1 {
      SplitName(es[0]);
    } else {
      SplitJoinElems(es[1..]);
      SplitConcat(es[0], JoinElems(es[1..]));
      SplitName(es[0]);
      assert [es[0]] + es[1..] == es;
    }
  }

  lemma JoinElemsHead(es: seq<string>)
    requires |es| >= 1 && es[0] != ""
    ensures |JoinElems(es)| > 0 && JoinElems(es)[0] == es[0][0]
  {
  }

  // ---------------------------------------------------------------------------
  // Lemmas about Resolve
  // ---------------------------------------------------------------------------

  lemma {:induction false} ResolveConcat(rooted: bool, acc: seq<string>, xs: seq<string>, ys: seq<string>)
    ensures Resolve(rooted, acc, xs + ys) == Resolve(rooted, Resolve(rooted, acc, xs), ys)
    decreases |xs|
  {
    if |xs| == 0 {
      assert xs + ys == ys;
    } else {
      assert (xs + ys)[0] == xs[0];
      assert (xs + ys)[1..] == xs[1..] + ys;
      ResolveConcat(rooted, Step(rooted, acc, xs[0]), xs[1..], ys);
    }
  }

  lemma StepKeepsCanonical(rooted: bool, acc: seq<string>, e: string)
    requires Canonical(Path(rooted, acc))
    requires Sep !in e
    ensures Canonical(Path(rooted, Step(rooted, acc, e)))
  {
    var r := Step(rooted, acc, e);
    if e == Parent && !(|acc| > 0 && acc[|acc| - 1] != Parent) && !rooted {
      assert r == acc + [Parent];
      forall i, j | 0 <= i < j < |r| && r[j] == Parent
        ensures r[i] == Parent
      {
        if j == |acc| {
          assert acc[|acc| - 1] == Parent;
        }
      }
    }
  }

  lemma {:induction false} ResolveKeepsCanonical(rooted: bool, acc: seq<string>, es: seq<string>)
    requires Canonical(Path(rooted, acc))
    requires forall i :: 0 <= i < |es| ==> Sep !in es[i]
    ensures Canonical(Path(rooted, Resolve(rooted, acc, es)))
    decreases |es|
  {
    if |es| > 0 {
      StepKeepsCanonical(rooted, acc, es[0]);
      ResolveKeepsCanonical(rooted, Step(rooted, acc, es[0]), es[1..]);
    }
  }

  /** Resolving elements that are already clean changes nothing. */
  lemma {:induction false} ResolveCanonicalIdentity(rooted: bool, acc: seq<string>, es: seq<string>)
    requires Canonical(Path(rooted, acc + es))
    ensures Resolve(rooted, acc, es) == acc + es
    decreases |es|
  {
    if |es| > 0 {
      var e := es[0];
      assert e == (acc + es)[|acc|];
      if e == Parent {
        assert !rooted;
        if |acc| > 0 {
          assert acc[|acc| - 1] == (acc + es)[|acc| - 1];
        }
      }
      assert Step(rooted, acc, e) == acc + [e];
      assert (acc + [e]) + es[1..] == acc + es;
      ResolveCanonicalIdentity(rooted, acc + [e], es[1..]);
    }
  }

  lemma {:induction false} ResolveNames(rooted: bool, acc: seq<string>, ns: seq<string>)
    requires AllNames(ns)
    ensures Resolve(rooted, acc, ns) == acc + ns
    decreases |ns|
  {
    if |ns| > 0 {
      ResolveNames(rooted, acc + [ns[0]], ns[1..]);
      assert (acc + [ns[0]]) + ns[1..] == acc + ns;
    }
  }

  /** Each ".." cancels one trailing name. */
  lemma {:induction false} ResolveUps(rooted: bool, acc: seq<string>, n: nat)
    requires AllNames(acc)
    requires n <= |acc|
    ensures Resolve(rooted, acc, Ups(n)) == acc[..|acc| - n]
    decreases n
  {
    if n > 0 {
      assert Ups(n)[1..] == Ups(n - 1);
      assert Step(rooted, acc, Parent) == acc[..|acc| - 1];
      ResolveUps(rooted, acc[..|acc| - 1], n - 1);
      assert acc[..|acc| - 1][..|acc| - 1 - (n - 1)] == acc[..|acc| - n];
    }
  }

  predicate NoDots(c: seq<string>) {
    forall i :: 0 <= i < |c| ==> c[i] != "" && c[i] != Current
  }

  lemma ResolveOne(rooted: bool, acc: seq<string>, e: string)
    ensures Resolve(rooted, acc, [e]) == Step(rooted, acc, e)
  {
    assert [e][1..] == [];
  }

  lemma StepCompose(rooted: bool, acc: seq<string>, c: seq<string>, e: string)
    requires NoDots(c)
    ensures NoDots(Step(false, c, e))
    ensures Resolve(rooted, acc, Step(false, c, e)) == Step(rooted, Resolve(rooted, acc, c), e)
  {
    ResolveOne(rooted, Resolve(rooted, acc, c), e);
    if e == "" || e == Current {
    } else if e == Parent && |c| > 0 && c[|c| - 1] != Parent {
      var c' := c[..|c| - 1];
      var last := c[|c| - 1];
      assert c == c' + [last];
      ResolveConcat(rooted, acc, c', [last]);
      ResolveOne(rooted, Resolve(rooted, acc, c'), last);
    } else {
      ResolveConcat(rooted, acc, c, [e]);
    }
  }

  /** Cleaning a relative part first and then resolving it against `acc`
      is the same as resolving the raw elements against `acc`. */
  lemma {:induction false} ResolveCompose(rooted: bool, acc: seq<string>, c: seq<string>, xs: seq<string>)
    requires NoDots(c)
    ensures Resolve(rooted, acc, Resolve(false, c, xs)) == Resolve(rooted, Resolve(rooted, acc, c), xs)
    decreases |xs|
  {
    if |xs| > 0 {
      StepCompose(rooted, acc, c, xs[0]);
      ResolveCompose(rooted, acc, Step(false, c, xs[0]), xs[1..]);
    }
  }

  // ---------------------------------------------------------------------------
  // Round trips
  // ---------------------------------------------------------------------------

  lemma NoSepInCanonical(p: Path)
    requires Canonical(p)
    ensures forall i :: 0 <= i < |p.elems| ==> Sep !in p.elems[i]
  {
    forall i | 0 <= i < |p.elems|
      ensures Sep !in p.elems[i]
    {
      assert p.elems[i] == Parent || IsName(p.elems[i]);
    }
  }

  lemma LexicalRenderRooted(p: Path)
    requires Canonical(p) && p.rooted
    ensures Lexical(Render(p)) == p
  {
    var s := Render(p);
    assert s[1..] == JoinElems(p.elems);
    if |p.elems| == 0 {
      assert s == [Sep];
      assert Split(s) == ["", ""];
      assert Resolve(true, [], ["", ""]) == [];
    } else {
      NoSepInCanonical(p);
      SplitJoinElems(p.elems);
      assert Split(s) == [""] + p.elems;
      assert Resolve(true, [], Split(s)) == Resolve(true, [], p.elems);
      ResolveCanonicalIdentity(true, [], p.elems);
      assert [] + p.elems == p.elems;
    }
  }

  lemma LexicalRenderRelative(p: Path)
    requires Canonical(p) && !p.rooted
    ensures Lexical(Render(p)) == p
  {
    if |p.elems| == 0 {
      assert Render(p) == Current;
      SplitName(Current);
    } else {
      assert p.elems[0] == Parent || IsName(p.elems[0]);
      JoinElemsHead(p.elems);
      SplitRenderRelative(p);
      ResolveCanonicalIdentity(false, [], p.elems);
      assert [] + p.elems == p.elems;
    }
  }

  /** Cleaning the printed form of a clean path gives the path back: `Clean`
      is idempotent and `Render` loses nothing. */
  lemma LexicalRender(p: Path)
    requires Canonical(p)
    ensures Lexical(Render(p)) == p
  {
    if p.rooted {
      LexicalRenderRooted(p);
    } else {
      LexicalRenderRelative(p);
    }
  }

  lemma RenderInjective(p: Path, q: Path)
    requires Canonical(p) && Canonical(q)
    ensures Render(p) == Render(q) <==> p == q
  {
    if Render(p) == Render(q) {
      LexicalRender(p);
      LexicalRender(q);
    }
  }

  /** `Join` with a non-empty first argument resolves the raw elements of the
      second against the cleaned first. */
  lemma JoinLexical(a: string, b: string)
    requires a != ""
    ensures Lexical(Join(a, b)) == Path(Lexical(a).rooted, Resolve(Lexical(a).rooted, Lexical(a).elems, Split(b)))
  {
    var s := a + [Sep] + b;
    var rooted := a[0] == Sep;
    assert s[0] == a[0];
    LexicalRender(Lexical(s));
    SplitConcat(a, b);
    ResolveConcat(rooted, [], Split(a), Split(b));
  }

  /** The output of `Join` (with a non-empty first argument) is already clean. */
  lemma JoinIsClean(a: string, b: string)
    requires a != ""
    ensures Join(a, b) == Render(Lexical(Join(a, b)))
  {
    LexicalRender(Lexical(a + [Sep] + b));
  }

  /** Two sequences that differ at position `k` (or the second ending there)
      are not in the prefix relation. */
  lemma NotPrefix(a: seq<string>, b: seq<string>, k: nat)
    requires k < |a|
    requires k < |b| ==> a[k] != b[k]
    ensures !(|a| <= |b| && b[..|a|] == a)
  {
    if |a| <= |b| {
      assert b[..|a|][k] == b[k];
    }
  }

  /** ".." elements followed by names form a clean relative path. */
  lemma UpsThenNames(n: nat, names: seq<string>)
    requires AllNames(names)
    ensures Canonical(Path(false, Ups(n) + names))
  {
    var es := Ups(n) + names;
    forall i, j | 0 <= i < j < |es| && es[j] == Parent
      ensures es[i] == Parent
    {
      assert j < n;
    }
  }

  /** The elements `Rel` builds from two different rooted element lists are
      clean and not empty. */
  lemma RelElemsShape(be: seq<string>, te: seq<string>)
    requires AllNames(be) && AllNames(te) && be != te
    ensures var k := CommonPrefix(be, te);
            var rp := Path(false, Ups(|be| - k) + te[k..]);
            Canonical(rp) && |rp.elems| > 0
  {
    var k := CommonPrefix(be, te);
    assert AllNames(te[k..]);
    UpsThenNames(|be| - k, te[k..]);
    if k == |be| {
      assert be == te[..k];
      assert k < |te|;
    }
  }

  /** What `Rel` computes for two rooted paths that differ: the ".." elements
      for the base's remaining names, then the target's remaining names. */
  lemma RelRootedShape(basepath: string, targpath: string)
    requires |basepath| > 0 && basepath[0] == Sep
    requires |targpath| > 0 && targpath[0] == Sep
    requires Lexical(basepath) != Lexical(targpath)
    ensures var base := Lexical(basepath);
            var targ := Lexical(targpath);
            var k := CommonPrefix(base.elems, targ.elems);
            var rp := Path(false, Ups(|base.elems| - k) + targ.elems[k..]);
            && Canonical(rp) && |rp.elems| > 0
            && Rel(basepath, targpath) == Success(Render(rp))
  {
    var base := Lexical(basepath);
    var targ := Lexical(targpath);
    RenderInjective(base, targ);
    assert AllNames(base.elems) && AllNames(targ.elems);
    RelElemsShape(base.elems, targ.elems);
    var k := CommonPrefix(base.elems, targ.elems);
    assert Render(targ) != Render(base);
    assert base.rooted && targ.rooted;
    assert k < |base.elems| ==> IsName(base.elems[k]);
  }

  /** A clean relative path other than "." splits back into its elements. */
  lemma SplitRenderRelative(p: Path)
    requires Canonical(p) && !p.rooted && |p.elems| > 0
    ensures Split(Render(p)) == p.elems
  {
    NoSepInCanonical(p);
    SplitJoinElems(p.elems);
  }

  /** Climbing out of the last elements of a rooted path and descending
      through names keeps the part not climbed out of. */
  lemma ResolveBackDown(acc: seq<string>, k: nat, rest: seq<string>)
    requires AllNames(acc) && k <= |acc| && AllNames(rest)
    ensures Resolve(true, acc, Ups(|acc| - k) + rest) == acc[..k] + rest
  {
    ResolveConcat(true, acc, Ups(|acc| - k), rest);
    ResolveUps(true, acc, |acc| - k);
    ResolveNames(true, acc[..k], rest);
  }

  /** Resolving `Rel`'s elements from the base's elements gives the target's. */
  lemma RelElemsRestore(be: seq<string>, te: seq<string>)
    requires AllNames(be) && AllNames(te)
    requires var k := CommonPrefix(be, te);
             var rp := Path(false, Ups(|be| - k) + te[k..]);
             Canonical(rp) && |rp.elems| > 0
    ensures var k := CommonPrefix(be, te);
            Resolve(true, be, Split(Render(Path(false, Ups(|be| - k) + te[k..])))) == te
  {
    var k := CommonPrefix(be, te);
    var rp := Path(false, Ups(|be| - k) + te[k..]);
    SplitRenderRelative(rp);
    assert AllNames(te[k..]);
    ResolveBackDown(be, k, te[k..]);
    assert be[..k] == te[..k];
    assert te[..k] + te[k..] == te;
  }

  /** Joining the relative result back onto the base restores the target. */
  lemma RelRootedJoin(basepath: string, targpath: string)
    requires |basepath| > 0 && basepath[0] == Sep
    requires |targpath| > 0 && targpath[0] == Sep
    requires Lexical(basepath) != Lexical(targpath)
    ensures Rel(basepath, targpath).Success?
    ensures Lexical(Join(basepath, Rel(basepath, targpath).value)) == Lexical(targpath)
  {
    RelRootedShape(basepath, targpath);
    var base := Lexical(basepath);
    var targ := Lexical(targpath);
    var k := CommonPrefix(base.elems, targ.elems);
    var rp := Path(false, Ups(|base.elems| - k) + targ.elems[k..]);
    JoinLexical(basepath, Render(rp));
    assert AllNames(base.elems) && AllNames(targ.elems);
    RelElemsRestore(base.elems, targ.elems);
  }

  /** `Rel`'s elements for two different name lists start with ".." exactly
      when the base is not a prefix of the target. */
  lemma RelElemsClimb(be: seq<string>, te: seq<string>)
    requires AllNames(be) && AllNames(te) && be != te
    ensures var k := CommonPrefix(be, te);
            var up := Ups(|be| - k) + te[k..];
            |up| > 0 && ((|be| <= |te| && te[..|be|] == be) <==> up[0] != Parent)
  {
    var k := CommonPrefix(be, te);
    var n := |be| - k;
    var up := Ups(n) + te[k..];
    if n > 0 {
      assert up[0] == Parent;
      NotPrefix(be, te, k);
    } else {
      assert be == te[..k];
      assert k < |te|;
      assert up[0] == te[k];
    }
  }

  /** The relative result climbs exactly when the target lies outside the base. */
  lemma RelRootedClimbs(basepath: string, targpath: string)
    requires |basepath| > 0 && basepath[0] == Sep
    requires |targpath| > 0 && targpath[0] == Sep
    requires Lexical(basepath) != Lexical(targpath)
    ensures Rel(basepath, targpath).Success?
    ensures Contained(Lexical(targpath), Lexical(basepath)) <==> !Climbs(Rel(basepath, targpath).value)
  {
    RelRootedShape(basepath, targpath);
    var base := Lexical(basepath);
    var targ := Lexical(targpath);
    var k := CommonPrefix(base.elems, targ.elems);
    var rp := Path(false, Ups(|base.elems| - k) + targ.elems[k..]);
    LexicalRender(rp);
    assert AllNames(base.elems) && AllNames(targ.elems);
    RelElemsClimb(base.elems, targ.elems);
  }

  /** Joining a single name onto a path appends that name. */
  lemma JoinName(a: string, name: string)
    requires a != ""
    requires IsName(name)
    ensures Lexical(Join(a, name)) == Path(Lexical(a).rooted, Lexical(a).elems + [name])
    ensures Lexical(a).rooted ==> |Join(a, name)| > 0 && Join(a, name)[0] == Sep
  {
    JoinLexical(a, name);
    SplitName(name);
    ResolveNames(Lexical(a).rooted, Lexical(a).elems, [name]);
    JoinIsClean(a, name);
  }

  lemma {:induction false} PrefixCommon(a: seq<string>, b: seq<string>)
    requires |a| <= |b| && b[..|a|] == a
    ensures CommonPrefix(a, b) == |a|
  {
    if |a| > 0 {
      assert a[0] == b[0];
      assert b[1..][..|a| - 1] == a[1..];
      PrefixCommon(a[1..], b[1..]);
    }
  }

  /** Climbing from a one-name base to "." keeps the target's text: the
      result is "../.", which cleans to "..". */
  lemma RelToCurrent(b: string)
    requires IsName(b)
    ensures Rel(b, Current) == Success(Parent + [Sep] + Current)
    ensures Clean(Rel(b, Current).value) == Parent
  {
    SplitName(b);
    SplitName(Current);
    assert [b][1..] == [];
    assert Resolve(false, [], [b]) == Resolve(false, [b], []) == [b];
    assert Lexical(b) == Path(false, [b]);
    assert Resolve(false, [], [Current]) == Resolve(false, [], []) == [];
    assert Lexical(Current) == Path(false, []);
    var r := Parent + [Sep] + Current;
    assert Split(r) == [Parent, Current] by {
      SplitConcat(Parent, Current);
      SplitName(Parent);
    }
    assert [Parent, Current][1..] == [Current];
    assert Resolve(false, [], [Parent, Current]) == Resolve(false, [Parent], [Current]) == [Parent];
  }

  /** A rooted target strictly below a rooted base is related to it by the
      names that follow the base. */
  lemma RelBelow(basepath: string, targpath: string)
    requires |basepath| > 0 && basepath[0] == Sep
    requires |targpath| > 0 && targpath[0] == Sep
    requires Contained(Lexical(targpath), Lexical(basepath))
    requires |Lexical(targpath).elems| > |Lexical(basepath).elems|
    ensures var q := Lexical(targpath).elems[|Lexical(basepath).elems|..];
            && AllNames(q) && |q| > 0
            && Rel(basepath, targpath) == Success(Render(Path(false, q)))
            && Lexical(Rel(basepath, targpath).value) == Path(false, q)
  {
    var base := Lexical(basepath);
    var targ := Lexical(targpath);
    RelRootedShape(basepath, targpath);
    var k := CommonPrefix(base.elems, targ.elems);
    PrefixCommon(base.elems, targ.elems);
    var q := targ.elems[k..];
    assert Ups(0) + q == q;
    assert AllNames(targ.elems);
    LexicalRender(Path(false, q));
  }

  /** `Rel` and `Join` are inverse on rooted paths: relating a rooted target to
      a rooted base never fails, joining the result back onto the base gives
      the target, and the relative path climbs out exactly when the target is
      not contained in the base. */
  lemma RelJoin(basepath: string, targpath: string)
    requires |basepath| > 0 && basepath[0] == Sep
    requires |targpath| > 0 && targpath[0] == Sep
    ensures Rel(basepath, targpath).Success?
    ensures Lexical(Join(basepath, Rel(basepath, targpath).value)) == Lexical(targpath)
    ensures Contained(Lexical(targpath), Lexical(basepath)) <==> !Climbs(Rel(basepath, targpath).value)
  {
    var base := Lexical(basepath);
    var targ := Lexical(targpath);
    RenderInjective(base, targ);
    if base == targ {
      assert Rel(basepath, targpath) == Success(Current);
      JoinLexical(basepath, Current);
      SplitName(Current);
      assert Lexical(Current).elems == [];
      assert base.elems == base.elems[..|base.elems|];
    } else {
      RelRootedJoin(basepath, targpath);
      RelRootedClimbs(basepath, targpath);
    }
  }

  lemma {:induction false} JoinElemsSnoc(es: seq<string>, e: string)
    requires |es| >= 1
    ensures JoinElems(es + [e]) == JoinElems(es) + [Sep] + e
    decreases |es|
  {
    if |es| > 1 {
      assert (es + [e])[1..] == es[1..] + [e];
      JoinElemsSnoc(es[1..], e);
    } else {
      assert (es + [e])[1..] == [e];
    }
  }

  lemma {:induction false} LastElemAfterSep(a: string, b: string)
    requires Sep !in b
    ensures LastElem(a + [Sep] + b) == b
    decreases |b|
  {
    var s := a + [Sep] + b;
    if |b| > 0 {
      assert s[..|s| - 1] == a + [Sep] + b[..|b| - 1];
      LastElemAfterSep(a, b[..|b| - 1]);
      assert b[..|b| - 1] + [b[|b| - 1]] == b;
    }
  }

  /** `Base` of a clean rooted path is its last element, or "/" for the root. */
  lemma BaseOfRooted(es: seq<string>)
    requires AllNames(es)
    ensures |es| == 0 ==> Base(Render(Path(true, es))) == [Sep]
    ensures |es| > 0 ==> Base(Render(Path(true, es))) == es[|es| - 1]
  {
    var s := Render(Path(true, es));
    if |es| == 0 {
      assert s == [Sep];
      assert TrimTrailingSeps(s) == [];
    } else {
      var last := es[|es| - 1];
      var front: string;
      if |es| == 1 {
        front := [];
        assert s == front + [Sep] + last;
      } else {
        var init := es[..|es| - 1];
        JoinElemsSnoc(init, last);
        assert init + [last] == es;
        front := [Sep] + JoinElems(init);
        assert s == front + [Sep] + last;
      }
      assert s[|s| - 1] == last[|last| - 1];
      assert TrimTrailingSeps(s) == s;
      LastElemAfterSep(front, last);
    }
  }

  lemma SplitThreeNames(dir: string, name: string, rest: string)
    requires IsName(dir) && IsName(name) && IsName(rest)
    ensures Split(dir + [Sep] + name + [Sep] + rest) == [dir, name, rest]
  {
    var tail := name + [Sep] + rest;
    assert dir + [Sep] + name + [Sep] + rest == dir + [Sep] + tail;
    SplitName(dir);
    SplitName(name);
    SplitName(rest);
    SplitConcat(name, rest);
    SplitConcat(dir, tail);
  }

  lemma SplitLeadingSep(b: string)
    ensures Split([Sep] + b) == [""] + Split(b)
  {
    assert ([Sep] + b)[1..] == b;
  }

  /** The rooted path `/dir/name/rest` has exactly those three elements,
      however many leading separators precede it. */
  lemma RootedThreeNames(dir: string, name: string, rest: string)
    requires IsName(dir) && IsName(name) && IsName(rest)
    ensures Lexical([Sep] + ([Sep] + dir + [Sep] + name + [Sep] + rest)).elems == [dir, name, rest]
  {
    var below := dir + [Sep] + name + [Sep] + rest;
    var path := [Sep] + dir + [Sep] + name + [Sep] + rest;
    assert path == [Sep] + below;
    SplitThreeNames(dir, name, rest);
    SplitLeadingSep(below);
    SplitLeadingSep(path);
    var es := [dir, name, rest];
    assert Split([Sep] + path) == ["", ""] + es;
    assert (["", ""] + es)[1..] == [""] + es;
    assert ([""] + es)[1..] == es;
    assert Resolve(true, [], ["", ""] + es) == Resolve(true, [], [""] + es) == Resolve(true, [], es);
    ResolveNames(true, [], es);
  }

  /** A separator in front of a rooted path changes nothing once cleaned. */
  lemma LexicalExtraSep(x: string)
    requires |x| > 0 && x[0] == Sep
    ensures Lexical([Sep] + x) == Lexical(x)
  {
    SplitLeadingSep(x);
    var es := Split(x);
    assert ([""] + es)[1..] == es;
    assert Resolve(true, [], [""] + es) == Resolve(true, [], es);
  }
}

=== FILE: server.dfy ===
/** server.go: the request pipeline. `ServeHTTP` checks Basic
    authentication and turns a handler error into a 500; `Handler` accepts
    GET only, resolves the URL path under the served directory and
    dispatches on what is there; `Directory` streams an archive or builds
    the listing. What is written to the client is a `Response` value. */
module Server {
  import opened Wrappers
  import opened Paths
  import opened Sorting
  import opened FileTree
  import opened Archive
  import opened Users

  /** `Server`: the served directory (absolute, as main.go makes it),
      whether listings are refused, and the credential store. */
  datatype Server = Server(baseDir: string, disallowDirectories: bool, store: UserStore)

  /** What `r.BasicAuth()` decodes from an `Authorization: Basic` header
      (section 2 of RFC 7617). */
  datatype Credentials = Credentials(user: seq<byte>, password: seq<byte>)

  /** The parts of a request the server reads: the method (`verb`), `r.URL.Path`, the
      Basic credentials if any, and the `format` query value ("" if absent). */
  datatype Request = Request(verb: string, urlPath: string, auth: Option<Credentials>, format: string)

  /** The errors closing the archive writers return, when they fail. */
  datatype ArchiveFaults = ArchiveFaults(closeErr: Option<Error>, gzipNewErr: Option<Error>, gzipCloseErr: Option<Error>)

  /** Everything outside the request: the filesystem, SHA-256, the visit
      before which the request context is cancelled, and the writer faults. */
  datatype World = World(root: Node, sha: seq<byte> -> Digest, cancelAt: Option<nat>, faults: ArchiveFaults)

  /** `dirListing`: the data the listing template renders. */
  datatype DirListing = DirListing(name: string, showBack: bool, files: seq<Info>, dirs: seq<Info>)

  datatype Download = ZipFile(zip: Outcome) | TarFile(tar: Outcome) | TarGzFile(tgz: GzOutcome)

  /** What the handler writes to the client. */
  datatype Response =
    | Unauthorized(challenge: string)
    | MethodNotAllowed
    | NotFound
    | Forbidden
    | ServeIndex(indexPath: string)
    | ServeFile(filePath: string)
    | Listing(listing: DirListing)
    | Attachment(filename: string, download: Download)

  /** `Handler`'s effect: what it wrote, if anything, and the error it returns. */
  datatype Handled = Handled(written: Option<Response>, err: Option<Error>)

  /** What the client receives: the handler's response, then, when the
      handler failed, a 500 carrying the error's text. */
  datatype Reply = Reply(written: Option<Response>, internalError: Option<string>)

  const Challenge: string := "Basic realm=\"Upduck login\""
  const MethodGet: string := "GET"
  const IndexName: string := "index.html"

  // ---------------------------------------------------------------------------
  // The format query
  // ---------------------------------------------------------------------------

  /** `unicode.ToUpper` as far as it can produce an ASCII letter: a-z, and
      the two non-ASCII letters whose upper case is ASCII (dotless i and long
      s). Every other character is left as it is, which keeps non-ASCII
      characters non-ASCII, as `unicode.ToUpper` does. */
  function UpperChar(c: char): char {
    if 'a' <= c <= 'z' then (c as int - 32) as char
    else if c == 'ı' then 'I'
    else if c == 'ſ' then 'S'
    else c
  }

  function ToUpper(s: string): (r: string)
    ensures |r| == |s|
    ensures forall i :: 0 <= i < |s| ==> r[i] == UpperChar(s[i])
  {
    seq(|s|, i requires 0 <= i < |s| => UpperChar(s[i]))
  }

  datatype Choice = ZipChoice | TarChoice | TarGzChoice | ListingChoice

  /** The `switch` on `strings.ToUpper(format)`. */
  function Choose(format: string): Choice {
    var u := ToUpper(format);
    if u == "ZIP" then ZipChoice
    else if u == "TAR" then TarChoice
    else if u == "TAR.GZ" then TarGzChoice
    else ListingChoice
  }

  /** The spellings that select each archive: every mix of cases, and for
      zip also the dotless i; anything else, the empty value included,
      selects the listing. */
  lemma ChooseSpellings(f: string)
    ensures Choose(f) == ZipChoice <==>
              |f| == 3 && f[0] in {'z', 'Z'} && f[1] in {'i', 'I', 'ı'} && f[2] in {'p', 'P'}
    ensures Choose(f) == TarChoice <==>
              |f| == 3 && f[0] in {'t', 'T'} && f[1] in {'a', 'A'} && f[2] in {'r', 'R'}
    ensures Choose(f) == TarGzChoice <==>
              && |f| == 6 && f[0] in {'t', 'T'} && f[1] in {'a', 'A'} && f[2] in {'r', 'R'}
              && f[3] == '.' && f[4] in {'g', 'G'} && f[5] in {'z', 'Z'}
    ensures Choose("") == ListingChoice
  {
    var u := ToUpper(f);
    if |f| == 3 {
      assert u == "ZIP" <==> u[0] == 'Z' && u[1] == 'I' && u[2] == 'P';
      assert u == "TAR" <==> u[0] == 'T' && u[1] == 'A' && u[2] == 'R';
    }
    if |f| == 6 {
      assert u == "TAR.GZ" <==> u[0] == 'T' && u[1] == 'A' && u[2] == 'R' && u[3] == '.' && u[4] == 'G' && u[5] == 'Z';
    }
  }

  // ---------------------------------------------------------------------------
  // The listing
  // ---------------------------------------------------------------------------

  function InfoName(i: Info): string {
    i.name
  }

  /** The loop that puts every entry into `dirs` or `files`, in order. */
  function Partition(infos: seq<Info>): (r: (seq<Info>, seq<Info>))
    ensures forall x :: multiset(r.0)[x] == (if x.isDir then multiset(infos)[x] else 0)
    ensures forall x :: multiset(r.1)[x] == (if x.isDir then 0 else multiset(infos)[x])
  {
    if |infos| == 0 then ([], [])
    else
      var rest := Partition(infos[..|infos| - 1]);
      var f := infos[|infos| - 1];
      assert infos == infos[..|infos| - 1] + [f];
      if f.isDir then (rest.0 + [f], rest.1) else (rest.0, rest.1 + [f])
  }

  /** The listing of `dirPath`: directories and files apart, each sorted by
      name, with the way back shown except at the served directory. */
  function MakeListing(baseDir: string, dirPath: string, infos: seq<Info>): (r: DirListing)
    ensures SortedBy(r.dirs, InfoName) && SortedBy(r.files, InfoName)
    ensures forall x :: multiset(r.dirs)[x] == (if x.isDir then multiset(infos)[x] else 0)
    ensures forall x :: multiset(r.files)[x] == (if x.isDir then 0 else multiset(infos)[x])
    ensures r.name == Base(dirPath)
    ensures !r.showBack <==> Clean(baseDir) == Clean(dirPath)
  {
    var parts := Partition(infos);
    DirListing(Base(dirPath), Clean(baseDir) != Clean(dirPath),
               SortBy(parts.1, InfoName), SortBy(parts.0, InfoName))
  }

  /** An element found at two positions occurs at least twice. */
  lemma CountTwo(b: seq<Info>, i: nat, j: nat)
    requires i < j < |b| && b[i] == b[j]
    ensures multiset(b)[b[i]] >= 2
  {
    assert b == b[..j] + [b[j]] + b[j + 1..];
    assert b[..j][i] == b[i];
    assert b[i] in multiset(b[..j]);
  }

  /** A sub-multiset of a sequence without repeated names repeats no name. */
  lemma DistinctBelow(a: seq<Info>, b: seq<Info>)
    requires DistinctBy(a, InfoName)
    requires multiset(b) <= multiset(a)
    ensures DistinctBy(b, InfoName)
  {
    forall i, j | 0 <= i < j < |b|
      ensures b[i].name != b[j].name
    {
      if b[i] == b[j] {
        CountTwo(b, i, j);
        TwiceInDistinct(a, b[i]);
      } else {
        assert b[i] in multiset(a) && b[j] in multiset(a);
        var p :| 0 <= p < |a| && a[p] == b[i];
        var q :| 0 <= q < |a| && a[q] == b[j];
        assert p != q;
      }
    }
  }

  /** An element of a sequence without repeated names occurs once. */
  lemma {:induction false} TwiceInDistinct(a: seq<Info>, x: Info)
    requires DistinctBy(a, InfoName)
    ensures multiset(a)[x] <= 1
  {
    if |a| > 0 {
      assert a == [a[0]] + a[1..];
      assert DistinctBy(a[1..], InfoName);
      TwiceInDistinct(a[1..], x);
      if a[0] == x {
        assert x !in a[1..];
      }
    }
  }

  /** Two sorted arrangements of the same part of a directory's entries are
      the same sequence. */
  lemma SortedPartUnique(a: seq<Info>, b: seq<Info>, infos: seq<Info>)
    requires DistinctBy(infos, InfoName)
    requires SortedBy(a, InfoName) && SortedBy(b, InfoName)
    requires multiset(a) == multiset(b) && multiset(a) <= multiset(infos)
    ensures a == b
  {
    DistinctBelow(infos, a);
    SortedUnique(a, b, InfoName);
  }

  /** Reordering the entries does not change which land in each part. */
  lemma PartitionOrderFree(infos: seq<Info>, infos': seq<Info>)
    requires multiset(infos) == multiset(infos')
    ensures multiset(Partition(infos).0) == multiset(Partition(infos').0) <= multiset(infos)
    ensures multiset(Partition(infos).1) == multiset(Partition(infos').1) <= multiset(infos)
  {
    var p, p' := Partition(infos), Partition(infos');
    forall x
      ensures multiset(p.0)[x] == multiset(p'.0)[x] <= multiset(infos)[x]
      ensures multiset(p.1)[x] == multiset(p'.1)[x] <= multiset(infos)[x]
    {
    }
  }

  /** The listing depends only on which entries the directory holds, not on
      the order `Readdir` returns them in: with names unique, as in any
      directory, both lists are the only sorted arrangement of their
      entries, so `sort.Slice`'s choice does not matter. */
  lemma ListingOrderFree(baseDir: string, dirPath: string, infos: seq<Info>, infos': seq<Info>)
    requires DistinctBy(infos, InfoName)
    requires multiset(infos) == multiset(infos')
    ensures MakeListing(baseDir, dirPath, infos) == MakeListing(baseDir, dirPath, infos')
  {
    var p, p' := Partition(infos), Partition(infos');
    PartitionOrderFree(infos, infos');
    SortedPartUnique(SortBy(p.0, InfoName), SortBy(p'.0, InfoName), infos);
    SortedPartUnique(SortBy(p.1, InfoName), SortBy(p'.1, InfoName), infos);
  }

  /** The way back is hidden exactly when the listed directory cleans to the
      served directory itself. */
  lemma ShowBackIffNotBase(baseDir: string, dirPath: string, infos: seq<Info>)
    ensures MakeListing(baseDir, dirPath, infos).showBack <==> Lexical(baseDir) != Lexical(dirPath)
  {
    RenderInjective(Lexical(baseDir), Lexical(dirPath));
  }

  // ---------------------------------------------------------------------------
  // Directory
  // ---------------------------------------------------------------------------

  /** `Directory(dirPath)` for the directory node `n` at `dirPath`: an archive
      named after the directory, or the listing of its entries. */
  function Directory(s: Server, dirPath: string, n: Node, format: string, w: World): (h: Handled)
    requires n.Dir?
    ensures Choose(format) == ZipChoice ==>
              var o := GenerateZip(dirPath, n, w.cancelAt, w.faults.closeErr);
              h == Handled(Some(Attachment(Base(dirPath) + ".zip", ZipFile(o))), o.err)
    ensures Choose(format) == TarChoice ==>
              var o := GenerateTar(dirPath, n, w.cancelAt, w.faults.closeErr);
              h == Handled(Some(Attachment(Base(dirPath) + ".tar", TarFile(o))), o.err)
    ensures Choose(format) == TarGzChoice ==>
              var o := GenerateTarGz(dirPath, n, w.cancelAt, w.faults.closeErr, w.faults.gzipNewErr, w.faults.gzipCloseErr);
              h == Handled(Some(Attachment(Base(dirPath) + ".tar.gz", TarGzFile(o))), o.err)
    ensures Choose(format) == ListingChoice ==>
              (h.err.None? <==> ReadDir(n).Success?) &&
              (h.err.None? ==> h.written == Some(Listing(MakeListing(s.baseDir, dirPath, ReadDir(n).value)))) &&
              (h.err.Some? ==> h.written.None?)
  {
    var name := Base(dirPath);
    match Choose(format)
    case ZipChoice =>
      var o := GenerateZip(dirPath, n, w.cancelAt, w.faults.closeErr);
      Handled(Some(Attachment(name + ".zip", ZipFile(o))), o.err)
    case TarChoice =>
      var o := GenerateTar(dirPath, n, w.cancelAt, w.faults.closeErr);
      Handled(Some(Attachment(name + ".tar", TarFile(o))), o.err)
    case TarGzChoice =>
      var o := GenerateTarGz(dirPath, n, w.cancelAt, w.faults.closeErr, w.faults.gzipNewErr, w.faults.gzipCloseErr);
      Handled(Some(Attachment(name + ".tar.gz", TarGzFile(o))), o.err)
    case ListingChoice =>
      match ReadDir(n)
      case Failure(e) => Handled(None, Some(e))
      case Success(infos) => Handled(Some(Listing(MakeListing(s.baseDir, dirPath, infos))), None)
  }

  // ---------------------------------------------------------------------------
  // Handler
  // ---------------------------------------------------------------------------

  /** The part of the URL path after its leading slash. */
  function RequestPart(urlPath: string): string {
    TrimPrefix(urlPath, "/")
  }

  /** `absPath`: the request part joined onto the served directory, made
      relative to it and joined back. */
  function ResolvePath(baseDir: string, urlPath: string): Result<string, Error> {
    var direct := Join(baseDir, RequestPart(urlPath));
    match Rel(baseDir, direct)
    case Failure(e) => Failure(e)
    case Success(rel) => Success(Join(baseDir, rel))
  }

  /** The string `Rel` produces on the way, for an absolute served directory. */
  function RelPart(baseDir: string, urlPath: string): string
    requires |baseDir| > 0 && baseDir[0] == Sep
  {
    var direct := Join(baseDir, RequestPart(urlPath));
    JoinName(baseDir, "x");
    JoinLexical(baseDir, RequestPart(urlPath));
    RelJoin(baseDir, direct);
    Rel(baseDir, direct).value
  }

  /** With an absolute served directory, the round trip through `Rel` never
      fails and changes nothing: `absPath` is the served directory and the
      request part joined and cleaned. It lies inside the served directory
      exactly when the relative path `Rel` produced does not climb. */
  lemma ResolveAbsolute(baseDir: string, urlPath: string)
    requires |baseDir| > 0 && baseDir[0] == Sep
    ensures ResolvePath(baseDir, urlPath) == Success(Clean(baseDir + [Sep] + RequestPart(urlPath)))
    ensures var abs := ResolvePath(baseDir, urlPath).value;
            Contained(Lexical(abs), Lexical(baseDir)) <==> !Climbs(RelPart(baseDir, urlPath))
  {
    var p := RequestPart(urlPath);
    var direct := Join(baseDir, p);
    JoinLexical(baseDir, p);
    assert |direct| > 0 && direct[0] == Sep by {
      JoinIsClean(baseDir, p);
      assert Lexical(direct).rooted;
    }
    RelJoin(baseDir, direct);
    var rel := Rel(baseDir, direct).value;
    var abs := Join(baseDir, rel);
    JoinIsClean(baseDir, rel);
    JoinIsClean(baseDir, p);
  }

  /** The request part as a relative path, cleaned: "." and empty elements
      dropped, ".." cancelling the element before it and kept at the front. */
  function CleanedPart(urlPath: string): seq<string> {
    Resolve(false, [], Split(RequestPart(urlPath)))
  }

  /** A request part that does not start by climbing stays inside the served
      directory: `absPath` is the served directory followed by its cleaned
      elements. This is what `net/http`'s cleaned URL paths provide. */
  lemma ContainedWithoutClimb(baseDir: string, urlPath: string)
    requires |baseDir| > 0 && baseDir[0] == Sep
    requires var q := CleanedPart(urlPath); |q| == 0 || q[0] != Parent
    ensures ResolvePath(baseDir, urlPath).Success?
    ensures Lexical(ResolvePath(baseDir, urlPath).value) == Path(true, Lexical(baseDir).elems + CleanedPart(urlPath))
    ensures Contained(Lexical(ResolvePath(baseDir, urlPath).value), Lexical(baseDir))
  {
    var p := RequestPart(urlPath);
    var base := Lexical(baseDir);
    var q := CleanedPart(urlPath);
    ResolveAbsolute(baseDir, urlPath);
    JoinLexical(baseDir, p);
    ResolveKeepsCanonical(false, [], Split(p));
    assert AllNames(q) by {
      forall i | 0 <= i < |q|
        ensures IsName(q[i])
      {
        assert q[0] != Parent;
      }
    }
    ResolveCompose(true, base.elems, [], Split(p));
    assert Resolve(true, base.elems, []) == base.elems;
    ResolveNames(true, base.elems, q);
    LexicalRender(Lexical(baseDir + [Sep] + p));
    assert (base.elems + q)[..|base.elems|] == base.elems;
  }

  /** The elements of "/d/../f". */
  lemma SplitEscape(d: string, f: string)
    requires IsName(d) && IsName(f)
    ensures Split([Sep] + d + [Sep] + (Parent + [Sep] + f)) == ["", d, Parent, f]
  {
    var t := Parent + [Sep] + f;
    assert [Sep] + d + [Sep] + t == "" + [Sep] + (d + [Sep] + t);
    SplitConcat("", d + [Sep] + t);
    SplitConcat(d, t);
    SplitConcat(Parent, f);
    SplitName("");
    SplitName(d);
    SplitName(Parent);
    SplitName(f);
  }

  /** A rooted path of one name. */
  lemma LexicalTop(d: string)
    requires IsName(d)
    ensures Lexical([Sep] + d) == Path(true, [d])
    ensures Render(Path(true, [d])) == [Sep] + d
  {
    assert [Sep] + d == "" + [Sep] + d;
    SplitConcat("", d);
    SplitName("");
    SplitName(d);
    assert Split([Sep] + d) == ["", d];
    assert Resolve(true, [], ["", d]) == Resolve(true, [], [d]);
    assert Resolve(true, [], [d]) == Resolve(true, [d], []);
    assert JoinElems([d]) == d;
  }

  /** Cleaning "/d/../f" step by step. */
  lemma ResolveEscape(d: string, f: string)
    requires IsName(d) && IsName(f)
    ensures Resolve(true, [], ["", d, Parent, f]) == [f]
  {
    var e := ["", d, Parent, f];
    assert e[1..] == [d, Parent, f];
    assert Resolve(true, [], e) == Resolve(true, [], [d, Parent, f]);
    assert [d, Parent, f][1..] == [Parent, f];
    assert Resolve(true, [], [d, Parent, f]) == Resolve(true, [d], [Parent, f]);
    assert [Parent, f][1..] == [f];
    assert Resolve(true, [d], [Parent, f]) == Resolve(true, [], [f]);
    assert Resolve(true, [], [f]) == Resolve(true, [f], []);
  }

  /** The comment above the `Rel` call claims that a request such as
      "/../secret.pdf" is kept inside the served directory. It is not: for
      every served directory "/d" and every other name "f", the request
      "/../f" resolves to "/f", outside "/d" (with "/srv" and "secret.pdf",
      to "/secret.pdf"). `http.ServeFile` itself answers such a URL path
      with 400, so a file is not handed out this way; a directory reached
      like this is still listed or archived by `Directory`. */
  lemma ClimbEscapes(d: string, f: string)
    requires IsName(d) && IsName(f) && d != f
    ensures ResolvePath([Sep] + d, [Sep] + Parent + [Sep] + f) == Success([Sep] + f)
    ensures !Contained(Lexical([Sep] + f), Lexical([Sep] + d))
  {
    var u := [Sep] + Parent + [Sep] + f;
    assert RequestPart(u) == Parent + [Sep] + f by {
      assert "/" <= u;
      assert u[1..] == Parent + [Sep] + f;
    }
    ResolveAbsolute([Sep] + d, u);
    SplitEscape(d, f);
    ResolveEscape(d, f);
    LexicalTop(d);
    LexicalTop(f);
  }

  /** `Handler`. */
  function Handler(s: Server, req: Request, w: World): (h: Handled)
    ensures req.verb != MethodGet ==> h == Handled(Some(MethodNotAllowed), None)
    ensures req.verb == MethodGet && |s.baseDir| > 0 && s.baseDir[0] == Sep ==>
              var abs := Clean(s.baseDir + [Sep] + RequestPart(req.urlPath));
              match StatPath(w.root, abs)
              case NotExist => h == Handled(Some(NotFound), None)
              case StatFailed(e) => h == Handled(None, Some(Failed(e)))
              case Found(n) =>
                if !n.Dir? then h == Handled(Some(ServeFile(abs)), None)
                else if StatPath(w.root, Join(abs, IndexName)).Found? then
                  h == Handled(Some(ServeIndex(Join(abs, IndexName))), None)
                else if s.disallowDirectories then h == Handled(Some(Forbidden), None)
                else h == Directory(s, abs, n, req.format, w)
  {
    if req.verb != MethodGet then Handled(Some(MethodNotAllowed), None)
    else
      if |s.baseDir| > 0 && s.baseDir[0] == Sep then
        ResolveAbsolute(s.baseDir, req.urlPath);
        Dispatch(s, req, w)
      else Dispatch(s, req, w)
  }

  /** The part of `Handler` after the method check. */
  function Dispatch(s: Server, req: Request, w: World): Handled {
    match ResolvePath(s.baseDir, req.urlPath)
    case Failure(e) => Handled(None, Some(e))
    case Success(absPath) =>
      match StatPath(w.root, absPath)
      case NotExist => Handled(Some(NotFound), None)
      case StatFailed(e) => Handled(None, Some(Failed(e)))
      case Found(n) =>
        if n.Dir? then
          var indexFile := Join(absPath, IndexName);
          if StatPath(w.root, indexFile).Found? then Handled(Some(ServeIndex(indexFile)), None)
          else if s.disallowDirectories then Handled(Some(Forbidden), None)
          else Directory(s, absPath, n, req.format, w)
        else Handled(Some(ServeFile(absPath)), None)
  }

  /** An archive of a directory reached through a rooted path is named
      after the directory's last element, or "/" for the filesystem root,
      with the extension of its format. */
  lemma DownloadName(s: Server, p: string, n: Node, format: string, w: World)
    requires |p| > 0 && p[0] == Sep && n.Dir?
    requires Choose(format) != ListingChoice
    ensures var es := Lexical(p).elems;
            var stem := if |es| == 0 then [Sep] else es[|es| - 1];
            var ext := match Choose(format)
                       case ZipChoice => ".zip"
                       case TarChoice => ".tar"
                       case _ => ".tar.gz";
            var h := Directory(s, Clean(p), n, format, w);
            h.written.Some? && h.written.value.Attachment? && h.written.value.filename == stem + ext
  {
    var es := Lexical(p).elems;
    assert AllNames(es);
    BaseOfRooted(es);
  }

  // ---------------------------------------------------------------------------
  // ServeHTTP
  // ---------------------------------------------------------------------------

  /** The request carries credentials the store accepts. */
  predicate Authenticated(s: Server, req: Request, w: World) {
    req.auth.Some? && IsValidUser(s.store, w.sha, req.auth.value.user, req.auth.value.password)
  }

  /** `ServeHTTP`. */
  function ServeHTTP(s: Server, req: Request, w: World): (r: Reply)
    ensures NeedAuth(s.store) && !Authenticated(s, req, w) ==> r == Reply(Some(Unauthorized(Challenge)), None)
    ensures !NeedAuth(s.store) || Authenticated(s, req, w) ==>
              var h := Handler(s, req, w);
              && r.written == h.written
              && (r.internalError.Some? <==> h.err.Some?)
              && (h.err.Some? ==> r.internalError == Some(h.err.value.Text()))
  {
    if NeedAuth(s.store) && (req.auth.None? || !IsValidUser(s.store, w.sha, req.auth.value.user, req.auth.value.password)) then
      Reply(Some(Unauthorized(Challenge)), None)
    else
      var h := Handler(s, req, w);
      Reply(h.written, if h.err.Some? then Some(h.err.value.Text()) else None)
  }

  /** A request the authentication gate turns away never reaches the
      filesystem: its reply is the same whatever the tree, the cancellation
      and the writer faults are. */
  lemma RejectedTouchesNothing(s: Server, req: Request, w: World, w': World)
    requires NeedAuth(s.store) && !Authenticated(s, req, w)
    requires w'.sha == w.sha
    ensures ServeHTTP(s, req, w) == ServeHTTP(s, req, w')
    ensures ServeHTTP(s, req, w).internalError.None?
  {
  }

  /** A method other than GET is refused with 405 before the URL path is
      looked at: no request path or filesystem changes the outcome. */
  lemma NonGetIgnoresPath(s: Server, req: Request, w: World, path: string, w': World)
    requires req.verb != MethodGet
    ensures Handler(s, req, w) == Handler(s, req.(urlPath := path), w') == Handled(Some(MethodNotAllowed), None)
  {
  }

  /** A directory holding an index.html is served through it even when
      listings are refused, and never as a listing or an archive. */
  lemma IndexWins(s: Server, req: Request, w: World)
    requires req.verb == MethodGet && |s.baseDir| > 0 && s.baseDir[0] == Sep
    requires var abs := Clean(s.baseDir + [Sep] + RequestPart(req.urlPath));
             StatPath(w.root, abs).Found? && StatPath(w.root, abs).node.Dir? &&
             StatPath(w.root, Join(abs, IndexName)).Found?
    ensures Handler(s, req, w) == Handler(s.(disallowDirectories := !s.disallowDirectories), req.(format := "zip"), w)
    ensures Handler(s, req, w).written.Some? && Handler(s, req, w).written.value.ServeIndex?
  {
  }
}

=== FILE: sorting.dfy ===
/** The byte-wise order on names that Go's `<` on strings gives, and the sort
    the server applies to directory entries and to the names a walk visits. */
module Sorting {

  /** `a` is at most `b`, comparing character by character. Unicode code
      points compare in the same order as their UTF-8 encodings, so for names
      that are valid UTF-8 this is Go's byte-wise `<=` on the encoded names. */
  predicate NameLe(a: string, b: string)
    decreases |a|
  {
    |a| == 0 || (|b| > 0 && (a[0] < b[0] || (a[0] == b[0] && NameLe(a[1..], b[1..]))))
  }

  /** Go's `a < b` on strings. */
  predicate NameLt(a: string, b: string) {
    NameLe(a, b) && a != b
  }

  lemma {:induction false} NameLeReflexive(a: string)
    ensures NameLe(a, a)
    decreases |a|
  {
    if |a| > 0 {
      NameLeReflexive(a[1..]);
    }
  }

  lemma {:induction false} NameLeAntisymmetric(a: string, b: string)
    requires NameLe(a, b) && NameLe(b, a)
    ensures a == b
    decreases |a|
  {
    if |a| > 0 {
      NameLeAntisymmetric(a[1..], b[1..]);
      assert a == [a[0]] + a[1..] && b == [b[0]] + b[1..];
    }
  }

  lemma {:induction false} NameLeTransitive(a: string, b: string, c: string)
    requires NameLe(a, b) && NameLe(b, c)
    ensures NameLe(a, c)
    decreases |a|
  {
    if |a| > 0 && a[0] == b[0] && b[0] == c[0] {
      NameLeTransitive(a[1..], b[1..], c[1..]);
    }
  }

  lemma {:induction false} NameLeTotal(a: string, b: string)
    ensures NameLe(a, b) || NameLe(b, a)
    decreases |a|
  {
    if |a| > 0 && |b| > 0 && a[0] == b[0] {
      NameLeTotal(a[1..], b[1..]);
    }
  }

  /** `s` is ordered by the names `key` gives its elements. */
  ghost predicate SortedBy<T>(s: seq<T>, key: T -> string) {
    forall i, j :: 0 <= i < j < |s| ==> NameLe(key(s[i]), key(s[j]))
  }

  /** No two elements of `s` carry the same name. */
  ghost predicate DistinctBy<T>(s: seq<T>, key: T -> string) {
    forall i, j :: 0 <= i < j < |s| ==> key(s[i]) != key(s[j])
  }

  /** `x` placed in front of the first element whose name is not smaller. */
  function Insert<T>(x: T, s: seq<T>, key: T -> string): (r: seq<T>)
    requires SortedBy(s, key)
    ensures SortedBy(r, key)
    ensures multiset(r) == multiset(s) + multiset{x}
  {
    if |s| == 0 then [x]
    else if NameLe(key(x), key(s[0])) then
      InsertFront(x, s, key);
      [x] + s
    else
      var rest := Insert(x, s[1..], key);
      NameLeTotal(key(x), key(s[0]));
      InsertBehind(s[0], x, s[1..], rest, key);
      assert s == [s[0]] + s[1..];
      [s[0]] + rest
  }

  lemma InsertFront<T>(x: T, s: seq<T>, key: T -> string)
    requires SortedBy(s, key)
    requires |s| > 0 && NameLe(key(x), key(s[0]))
    ensures SortedBy([x] + s, key)
  {
    var r := [x] + s;
    forall i, j | 0 <= i < j < |r|
      ensures NameLe(key(r[i]), key(r[j]))
    {
      if i == 0 && j > 1 {
        NameLeTransitive(key(x), key(s[0]), key(s[j - 1]));
      }
    }
  }

  lemma InsertBehind<T>(h: T, x: T, tail: seq<T>, rest: seq<T>, key: T -> string)
    requires SortedBy([h] + tail, key)
    requires NameLe(key(h), key(x))
    requires SortedBy(rest, key)
    requires multiset(rest) == multiset(tail) + multiset{x}
    ensures SortedBy([h] + rest, key)
  {
    var r := [h] + rest;
    forall i, j | 0 <= i < j < |r|
      ensures NameLe(key(r[i]), key(r[j]))
    {
      if i == 0 {
        var y := r[j];
        assert y == rest[j - 1];
        assert y in multiset(rest);
        if y != x {
          assert y in multiset(tail);
          HeadIsLeast([h] + tail, key, y);
        }
      } else {
        assert r[i] == rest[i - 1] && r[j] == rest[j - 1];
      }
    }
  }

  /** The first element of a sorted sequence has the least name. */
  lemma HeadIsLeast<T>(s: seq<T>, key: T -> string, y: T)
    requires SortedBy(s, key)
    requires |s| > 0 && y in multiset(s[1..])
    ensures NameLe(key(s[0]), key(y))
  {
    var t :| 0 <= t < |s[1..]| && s[1..][t] == y;
    assert s[t + 1] == y;
  }

  /** Insertion sort by name. */
  function SortBy<T>(s: seq<T>, key: T -> string): (r: seq<T>)
    ensures SortedBy(r, key)
    ensures multiset(r) == multiset(s)
  {
    if |s| == 0 then []
    else
      assert s == [s[0]] + s[1..];
      Insert(s[0], SortBy(s[1..], key), key)
  }

  /** Names that are all different admit only one sorted arrangement: two
      sorted permutations of the same elements are equal. This is why the
      listing does not depend on the order the directory is read in. */
  lemma {:induction false} SortedUnique<T>(a: seq<T>, b: seq<T>, key: T -> string)
    requires SortedBy(a, key) && SortedBy(b, key)
    requires multiset(a) == multiset(b)
    requires DistinctBy(a, key)
    ensures a == b
    decreases |a|
  {
    assert |a| == |multiset(a)| == |multiset(b)| == |b|;
    if |a| > 0 {
      SameHead(a, b, key);
      TailOf(a, key);
      TailOf(b, key);
      SortedUnique(a[1..], b[1..], key);
    }
  }

  /** The tail of a sorted sequence is sorted, keeps distinct names, and
      holds everything but the head. */
  lemma TailOf<T>(a: seq<T>, key: T -> string)
    requires |a| > 0
    ensures SortedBy(a, key) ==> SortedBy(a[1..], key)
    ensures DistinctBy(a, key) ==> DistinctBy(a[1..], key)
    ensures multiset(a[1..]) == multiset(a) - multiset{a[0]}
    ensures a == [a[0]] + a[1..]
  {
    assert a == [a[0]] + a[1..];
  }

  lemma SameHead<T>(a: seq<T>, b: seq<T>, key: T -> string)
    requires SortedBy(a, key) && SortedBy(b, key)
    requires multiset(a) == multiset(b)
    requires DistinctBy(a, key)
    requires |a| > 0 && |b| > 0
    ensures a[0] == b[0]
  {
    assert a[0] in multiset(a) && b[0] in multiset(b);
    var i :| 0 <= i < |a| && a[i] == b[0];
    var j :| 0 <= j < |b| && b[j] == a[0];
    HeadLe(a, key, i);
    HeadLe(b, key, j);
    NameLeAntisymmetric(key(a[0]), key(b[0]));
    DistinctAt(a, key, i);
  }

  /** The first element of a sorted sequence has a name no larger than any other's. */
  lemma HeadLe<T>(s: seq<T>, key: T -> string, i: nat)
    requires SortedBy(s, key)
    requires i < |s|
    ensures NameLe(key(s[0]), key(s[i]))
  {
    NameLeReflexive(key(s[0]));
  }

  lemma DistinctAt<T>(s: seq<T>, key: T -> string, i: nat)
    requires DistinctBy(s, key)
    requires i < |s|
    ensures i == 0 || key(s[0]) != key(s[i])
  {
  }
}

=== FILE: users.dfy ===
/** users.go: the credential store behind HTTP Basic authentication.

    Go strings are byte strings, and the store compares them only as bytes,
    so user names, passwords and stored hashes are byte sequences here.
    SHA-256 (FIPS 180-4) is not modelled: it is a parameter `sha` mapping a
    message to a 32-byte digest. */
module Users {
  import opened Wrappers

  /** A 32-byte SHA-256 digest. */
  type Digest = d: seq<byte> | |d| == 32 witness seq(32, _ => 0 as byte)

  /** One stored credential (`password_hash`, `password_salt`). */
  datatype User = User(passwordHash: seq<byte>, passwordSalt: seq<byte>)

  /** The in-memory store: user name to credential. */
  datatype UserStore = UserStore(users: map<seq<byte>, User>)

  /** `NeedAuth`: authentication is required exactly when some user exists. */
  function NeedAuth(s: UserStore): (r: bool)
    ensures r <==> exists name :: name in s.users
  {
    assert |s.users| != 0 ==> s.users.Keys != {};
    |s.users| != 0
  }

  // ---------------------------------------------------------------------------
  // Lowercase Base16
  // ---------------------------------------------------------------------------

  /** One of the ASCII characters 0-9, a-f. */
  predicate IsLowerHex(c: byte) {
    (0x30 <= c <= 0x39) || (0x61 <= c <= 0x66)
  }

  /** The lowercase hex digit for a nibble. */
  function HexDigit(v: byte): (c: byte)
    requires v < 16
    ensures IsLowerHex(c)
  {
    if v < 10 then 0x30 + v else 0x61 + (v - 10)
  }

  /** The nibble a lowercase hex digit stands for. */
  function DigitValue(c: byte): (v: byte)
    requires IsLowerHex(c)
    ensures v < 16
  {
    if c <= 0x39 then c - 0x30 else c - 0x61 + 10
  }

  lemma DigitRoundTrip(v: byte)
    requires v < 16
    ensures DigitValue(HexDigit(v)) == v
  {
  }

  /** `hex.EncodeToString` (section 8 of RFC 4648, with the lowercase
      alphabet): each byte becomes its high then its low nibble. */
  function HexEncode(d: seq<byte>): (r: seq<byte>)
    ensures |r| == 2 * |d|
    ensures forall i :: 0 <= i < |r| ==> IsLowerHex(r[i])
  {
    if |d| == 0 then []
    else [HexDigit(d[0] >> 4), HexDigit(d[0] & 0x0F)] + HexEncode(d[1..])
  }

  /** The inverse of `HexEncode`: `None` on odd length or a non-digit. */
  function HexDecode(s: seq<byte>): Option<seq<byte>>
    decreases |s|
  {
    if |s| == 0 then Some([])
    else if |s| == 1 || !IsLowerHex(s[0]) || !IsLowerHex(s[1]) then None
    else
      match HexDecode(s[2..])
      case None => None
      case Some(rest) => Some([(DigitValue(s[0]) << 4) | DigitValue(s[1])] + rest)
  }

  /** Decoding the encoding gives back the bytes. */
  lemma {:induction false} HexRoundTrip(d: seq<byte>)
    ensures HexDecode(HexEncode(d)) == Some(d)
  {
    if |d| > 0 {
      var b := d[0];
      var s := HexEncode(d);
      assert s[2..] == HexEncode(d[1..]);
      HexRoundTrip(d[1..]);
      DigitRoundTrip(b >> 4);
      DigitRoundTrip(b & 0x0F);
      assert ((b >> 4) << 4) | (b & 0x0F) == b;
      assert d == [b] + d[1..];
    }
  }

  /** Different digests have different encodings. */
  lemma HexInjective(a: seq<byte>, b: seq<byte>)
    requires HexEncode(a) == HexEncode(b)
    ensures a == b
  {
    HexRoundTrip(a);
    HexRoundTrip(b);
  }

  // ---------------------------------------------------------------------------
  // hash
  // ---------------------------------------------------------------------------

  /** `hash(password, salt)`: the digest of the salt bytes followed by the
      password bytes, as 64 lowercase hex characters. */
  function Hash(sha: seq<byte> -> Digest, password: seq<byte>, salt: seq<byte>): (r: seq<byte>)
    ensures |r| == 64
    ensures forall i :: 0 <= i < |r| ==> IsLowerHex(r[i])
    ensures HexDecode(r) == Some(sha(salt + password))
  {
    HexRoundTrip(sha(salt + password));
    HexEncode(sha(salt + password))
  }

  /** Two passwords hash alike under one salt exactly when the digest cannot
      tell salt-then-password apart. */
  lemma HashMatches(sha: seq<byte> -> Digest, p: seq<byte>, q: seq<byte>, salt: seq<byte>)
    ensures Hash(sha, p, salt) == Hash(sha, q, salt) <==> sha(salt + p) == sha(salt + q)
  {
    if Hash(sha, p, salt) == Hash(sha, q, salt) {
      HexInjective(sha(salt + p), sha(salt + q));
    }
  }

  // ---------------------------------------------------------------------------
  // getSalt
  // ---------------------------------------------------------------------------

  const SaltSize: nat := 128

  const SaltPanic: string := "reading salt from random source: "

  /** `getSalt`: 128 bytes read from the random source `source` (the bytes it
      would deliver); a source that runs dry makes `getSalt` panic. `rand.Read`
      is `io.ReadFull`, whose error is `io.EOF` when no byte arrived and
      `io.ErrUnexpectedEOF` after a partial read. */
  function GetSalt(source: seq<byte>): (r: Result<seq<byte>, Error>)
    ensures r.Success? <==> |source| >= SaltSize
    ensures r.Success? ==> |r.value| == SaltSize && r.value <= source
    ensures r.Failure? ==> r.error == Failed(SaltPanic + (if |source| == 0 then "EOF" else "unexpected EOF"))
  {
    if |source| == 0 then Failure(Failed(SaltPanic + "EOF"))
    else if |source| < SaltSize then Failure(Failed(SaltPanic + "unexpected EOF"))
    else Success(source[..SaltSize])
  }

  /** Only the first 128 bytes the source delivers matter: two sources that
      agree on them give the same salt, whatever follows. */
  lemma SaltReadsPrefix(a: seq<byte>, b: seq<byte>)
    requires |a| >= SaltSize && |b| >= SaltSize
    requires a[..SaltSize] == b[..SaltSize]
    ensures GetSalt(a) == GetSalt(b)
    ensures GetSalt(a).Success? && GetSalt(a).value == a[..SaltSize]
  {
  }

  // ---------------------------------------------------------------------------
  // constantTimeEquals
  // ---------------------------------------------------------------------------

  /** `subtle.ConstantTimeByteEq`: 1 when the bytes are equal, 0 otherwise,
      computed without a branch as the top bit of `(x ^ y) - 1` in 32 bits. */
  function ConstantTimeByteEq(x: byte, y: byte): (r: int)
    ensures r == (if x == y then 1 else 0)
  {
    var z := (x ^ y) as bv32;
    assert x == y <==> z == 0;
    ((z - 1) >> 31) as int
  }

  /** The OR of the XORs of the first `n` byte pairs. */
  function XorOr(a: seq<byte>, b: seq<byte>, n: nat): byte
    requires n <= |a| && n <= |b|
  {
    if n == 0 then 0 else XorOr(a, b, n - 1) | (a[n - 1] ^ b[n - 1])
  }

  /** The accumulated difference is zero exactly when the prefixes agree. */
  lemma {:induction false} XorOrZero(a: seq<byte>, b: seq<byte>, n: nat)
    requires n <= |a| && n <= |b|
    ensures XorOr(a, b, n) == 0 <==> a[..n] == b[..n]
  {
    if n > 0 {
      XorOrZero(a, b, n - 1);
      var v := XorOr(a, b, n - 1);
      var x := a[n - 1] ^ b[n - 1];
      assert (v | x) == 0 <==> v == 0 && x == 0;
      assert x == 0 <==> a[n - 1] == b[n - 1];
      assert a[..n] == a[..n - 1] + [a[n - 1]];
      assert b[..n] == b[..n - 1] + [b[n - 1]];
    }
  }

  /** `constantTimeEquals(a, b)`: `subtle.ConstantTimeCompare(a, b) == 1`.
      Lengths are compared first; equal lengths compare every byte. */
  function ConstantTimeEquals(a: seq<byte>, b: seq<byte>): (r: bool)
    ensures r <==> a == b
  {
    if |a| != |b| then false
    else
      XorOrZero(a, b, |a|);
      assert a[..|a|] == a && b[..|b|] == b;
      ConstantTimeByteEq(XorOr(a, b, |a|), 0) == 1
  }

  /** `subtle.ConstantTimeCompare` as the loop it is: 1 when `x` and `y` are
      equal, 0 otherwise, touching every byte of equal-length inputs. */
  method ConstantTimeCompare(x: seq<byte>, y: seq<byte>) returns (r: int)
    ensures r == 0 || r == 1
    ensures r == 1 <==> x == y
  {
    if |x| != |y| {
      return 0;
    }
    var v: byte := 0;
    var i := 0;
    while i < |x|
      invariant 0 <= i <= |x|
      invariant v == 0 <==> x[..i] == y[..i]
    {
      assert x[..i + 1] == x[..i] + [x[i]];
      assert y[..i + 1] == y[..i] + [y[i]];
      v := v | (x[i] ^ y[i]);
      i := i + 1;
    }
    assert x[..i] == x && y[..i] == y;
    r := ConstantTimeByteEq(v, 0);
  }

  // ---------------------------------------------------------------------------
  // IsValidUser
  // ---------------------------------------------------------------------------

  /** `IsValidUser`: an unknown user is rejected without hashing; a known one
      is accepted exactly when its stored hash matches the hash of the
      password under its stored salt. */
  function IsValidUser(s: UserStore, sha: seq<byte> -> Digest, user: seq<byte>, passwd: seq<byte>): (r: bool)
    ensures user !in s.users ==> !r
    ensures user in s.users ==>
              (r <==> s.users[user].passwordHash == Hash(sha, passwd, s.users[user].passwordSalt))
  {
    if user !in s.users then false
    else
      var usr := s.users[user];
      ConstantTimeEquals(usr.passwordHash, Hash(sha, passwd, usr.passwordSalt))
  }

  /** The credential `hash` produces for a password and a salt. */
  function Credential(sha: seq<byte> -> Digest, password: seq<byte>, salt: seq<byte>): User {
    User(Hash(sha, password, salt), salt)
  }

  /** A credential made from a password accepts that password, and accepts
      another exactly when SHA-256 maps the two salted messages to one digest. */
  lemma CredentialAccepts(s: UserStore, sha: seq<byte> -> Digest, user: seq<byte>,
                          password: seq<byte>, salt: seq<byte>, attempt: seq<byte>)
    ensures IsValidUser(UserStore(s.users[user := Credential(sha, password, salt)]), sha, user, password)
    ensures IsValidUser(UserStore(s.users[user := Credential(sha, password, salt)]), sha, user, attempt)
            <==> sha(salt + attempt) == sha(salt + password)
  {
    HashMatches(sha, password, attempt, salt);
  }

  // ---------------------------------------------------------------------------
  // Persistence
  // ---------------------------------------------------------------------------

  /** The files on disk: path to contents. */
  type Files = map<string, seq<byte>>

  /** Which of the calls `Save` makes fail, and with what. */
  datatype SaveFaults = SaveFaults(create: Option<Error>, encode: Option<Error>, close: Option<Error>, rename: Option<Error>)

  datatype SaveResult = SaveResult(files: Files, err: Option<Error>)

  const TempSuffix: string := ".temp"

  /** `Save`: create `path + ".temp"`, write the encoded store into it, close
      it, then rename it over `path`. `encoded` is the JSON encoding of the
      store. */
  function Save(files: Files, path: string, encoded: seq<byte>, faults: SaveFaults): (r: SaveResult)
    ensures var tmp := path + TempSuffix;
            forall p :: p != path && p != tmp ==>
              (p in r.files <==> p in files) && (p in files ==> r.files[p] == files[p])
    ensures r.err.Some? ==> (path in r.files <==> path in files) && (path in files ==> r.files[path] == files[path])
    ensures r.err.None? ==> path in r.files && r.files[path] == encoded && path + TempSuffix !in r.files
    ensures r.err.None? <==> faults == SaveFaults(None, None, None, None)
  {
    var tmp := path + TempSuffix;
    assert tmp != path by {
      assert |tmp| > |path|;
    }
    if faults.create.Some? then SaveResult(files, faults.create)
    else
      var created := files[tmp := []];
      if faults.encode.Some? then SaveResult(created, faults.encode)
      else
        var written := files[tmp := encoded];
        if faults.close.Some? then SaveResult(written, faults.close)
        else if faults.rename.Some? then SaveResult(written, faults.rename)
        else SaveResult((written - {tmp})[path := encoded], None)
  }

  /** What the JSON decoder produced from a file: the `users` member (absent
      when missing or null) and the decoding error, if any. */
  datatype Decoded = Decoded(users: Option<map<seq<byte>, User>>, err: Option<Error>)

  datatype LoadResult = LoadResult(store: UserStore, err: Option<Error>)

  /** `loadUsers(path)`: always a store; an empty one, with the error, when the
      file cannot be opened; otherwise what the decoder read, with an empty
      map in place of a missing or null `users`, and the decoder's error. */
  function LoadUsers(files: Files, path: string, decode: seq<byte> -> Decoded): (r: LoadResult)
    ensures path !in files ==> r.store.users == map[] && r.err.Some?
    ensures path in files ==> r.err == decode(files[path]).err
    ensures path in files && decode(files[path]).users.Some? ==> r.store.users == decode(files[path]).users.value
    ensures path in files && decode(files[path]).users.None? ==> r.store.users == map[]
  {
    if path !in files then LoadResult(UserStore(map[]), Some(Failed("open " + path + ": no such file or directory")))
    else
      var d := decode(files[path]);
      LoadResult(UserStore(d.users.GetOr(map[])), d.err)
  }

  /** A successful `Save` followed by `loadUsers` gives the store back, for a
      decoder that reads back what the encoder wrote. */
  lemma SaveThenLoad(files: Files, path: string, s: UserStore, encoded: seq<byte>, decode: seq<byte> -> Decoded)
    requires decode(encoded) == Decoded(Some(s.users), None)
    ensures var saved := Save(files, path, encoded, SaveFaults(None, None, None, None));
            saved.err.None? && LoadUsers(saved.files, path, decode) == LoadResult(s, None)
  {
  }
}

=== FILE: wrappers.dfy ===
/** Failure-carrying result types shared by every module of the model. */
module Wrappers {

  /** A Go `byte`. */
  type byte = bv8

  /** A Go value that may be absent (a nil pointer, a nil error, an unset field). */
  datatype Option<+T> = None | Some(value: T) {

    /** The value, or `default` when absent. */
    function GetOr(default: T): T {
      match this
      case Some(v) => v
      case None => default
    }
  }

  /** A Go `(value, error)` pair in which exactly one side is meaningful. */
  datatype Result<+R, +E> = Success(value: R) | Failure(error: E)

  /** The errors the model distinguishes. `Cancelled` is the archive walk's
      `errCancelled`; every other Go error is carried by its text. */
  datatype Error = Cancelled | Failed(text: string) {

    /** What `err.Error()` returns. */
    function Text(): string {
      match this
      case Cancelled => "request cancelled"
      case Failed(t) => t
    }
  }
}
